=== FILE: README.md ===
# Talksoup core, modelled in Dafny

This project models the decision logic of the Talksoup mental-health companion:

- the onboarding **scoring engine** (`ScoringEngine` in `api/scoring_engine.py`). It turns questionnaire answers into five domain scores on a 0..100 scale. From those it derives a weighted mental-health index, a primary emotional cluster with a confidence, a set of risk flags and a summary text. It also has a fixed fallback result for when a stage raises.
- the **pure helpers of the Flask app** (`simple_app.py`):
  - the journaling streak;
  - crisis detection over the last five chat items;
  - feature suggestions;
  - the canned reply used when the language model is unavailable;
  - the emotion, energy and depth classifiers;
  - the emotional state derived from a user context;
  - the page arithmetic of the two journal listings.
- the **onboarding questionnaire page** (`static/js/onboarding.js`). It is a state machine over the step cursor, the recorded answers, the conversation level and the visibility of the Previous, Next and Submit buttons.

Modules:

| file | module | contents |
|---|---|---|
| `wrappers.dfy` | `Wrappers` | `Option` and `Result` |
| `text.dfy` | `Text` | ASCII lower-casing, substring search, "any keyword occurs" |
| `seqs.dfy` | `Seqs` | order-preserving selection, first match |
| `scoring.dfy` | `Scoring` | the scoring engine, stage by stage |
| `scoring_properties.dfy` | `ScoringProperties` | properties that relate several stages |
| `chat.dfy` | `Chat` | crisis detection, suggestions, fallback reply, classifiers |
| `journal.dfy` | `Journal` | the journaling streak and the listing pages |
| `onboarding.dfy` | `Onboarding` | the questionnaire page |

Modelling choices:

- **Scores.** Scores are exact `real`s. Python's float arithmetic and `round` are not modelled.
- **Answers.** A posted answer is either a string or a list of strings (`Answer`).
- **Python semantics.** The model spells out several Python behaviours:
  - the truthiness of answers;
  - `dict.get` defaults;
  - `max` keeping the first of equal maxima;
  - floor division;
  - slices with negative or out-of-range bounds;
  - the `TypeError` raised when a non-empty list is looked up in a scoring table.
- **The language model.** The client call (`call_gemini`) is a function parameter `generate` from a prompt to a reply.
- **Dates and clock.** Journal dates are day numbers. "Today" is a parameter.
- **The browser page.** The DOM is abstracted to the checked input values and the text-area content of the current question.

## Model

| member | source | states |
|---|---|---|
| Text.Lower | simple_app.py:1219 | lower-casing keeps the length, leaves no capital A-Z behind, turns each capital into its small letter and leaves every other character as it was |
| Text.LowerIdempotent | simple_app.py:1219 | lower-casing an already lower-cased message changes nothing |
| Text.ContainsIsSubstring | simple_app.py:1268 | the executable search succeeds exactly when the needle occurs at some position of the text (Python's `needle in text`) |
| Text.MentionsAnyIff | simple_app.py:1268 | `any(k in text for k in words)` holds exactly when some keyword of the list occurs in the text |
| Seqs.Filter | simple_app.py:1457-1460 | the kept elements are exactly the elements satisfying the test, in their original order; a list without repeats stays without repeats |
| Seqs.FilterCount | simple_app.py:1457-1460 | a kept element is kept as many times as it occurs in the input, and a dropped element not at all, as in a conditional list comprehension |
| Seqs.FirstIndex | simple_app.py:1388-1392 | the returned position is the first element satisfying the test, or the length when none does |
| Scoring.TableRange | api/scoring_engine.py:13-100 | every value of every normalisation table is on the 1..5 scale |
| Scoring.FieldScore | api/scoring_engine.py:134-142 | a truthy string answer found in the field's table scores the table value; any other answer scores the neutral 3 |
| Scoring.CopingSkillsCount | api/scoring_engine.py:144-151 | the coping count is present exactly when the key was posted; a list scores its length capped at 5 (the length below five items, 5 from five on); any other answer scores 3 |
| Scoring.FirstFault | api/scoring_engine.py:134-137 | a table lookup raises exactly when some tabled field holds a non-empty list |
| Scoring.Normalize | api/scoring_engine.py:129-153 | normalisation fails exactly when a tabled field holds a non-empty list; otherwise every field gets its table value or the neutral 3, the coping rule is applied; every tabled field is on the 1..5 scale and the coping count is on 0..5 |
| Scoring.DomainLookupByName | api/scoring_engine.py:155-189 | looking a domain up by its dictionary name gives the matching score; any other name gives the default |
| Scoring.CalculateDomainScores | api/scoring_engine.py:155-189 | on normalised input every domain lies in 10..100; protective strength is the two-term mean; all-neutral input gives 60 everywhere |
| Scoring.MentalHealthIndex | api/scoring_engine.py:191-198 | the weighted index (weights 0.25, 0.20, 0.20, 0.20, 0.15) lies within any bounds that hold for all five domains |
| Scoring.FirstArgMax | api/scoring_engine.py:211 | the chosen position holds a maximum, and every earlier position holds a strictly smaller value (`max` keeps the first of equal maxima) |
| Scoring.DetermineCluster | api/scoring_engine.py:200-264 | the chosen cluster has a maximal affinity, every cluster listed before it scores strictly less, and the confidence is the affinity capped at 1 |
| Scoring.AssessRisk | api/scoring_engine.py:266-297 | the suicide flag is raised iff the answer is yes_briefly or yes_often; otherwise the acute flag iff mood is below 50 with social support below 2, else the moderate flag iff mood and energy are below 50, else the low flag iff protective strength is above 70; at most one flag is raised and the priority follows the flag |
| Scoring.Template | api/scoring_engine.py:334-340 | every cluster has a non-empty static summary |
| Scoring.GenerateSummaryText | api/scoring_engine.py:299-359 | the generator's reply is used unless it is empty or equals one of the two exact sentinels; otherwise the static summary is used; the result is never empty |
| Scoring.ProcessOnboardingData | api/scoring_engine.py:361-407 | the fixed fallback result is returned exactly when a table lookup raises; otherwise domains lie in 0..100 and emergency mode equals an affirmative suicidal answer; the index lies in 0..100 and the confidence is at most 1 |
| ScoringProperties.EmptyAnswersNormalizeNeutral | api/scoring_engine.py:129-189 | with no answers every field normalises to 3, the coping count defaults to 3 and every domain is 60 |
| ScoringProperties.NeutralScoresSelectResilient | api/scoring_engine.py:200-264 | on neutral scores the four inversion clusters score 0.4 and the resilient cluster wins with 0.6 |
| ScoringProperties.EmptyAnswersGiveBaseline | api/scoring_engine.py:361-396 | an empty questionnaire yields index 60, the resilient cluster at 0.6, every domain at 60, no flag and no emergency |
| ScoringProperties.AffinityBounds | api/scoring_engine.py:216-264 | on normalised input the four inversion affinities lie in 0..0.8 and the resilient one in 0..1 |
| ScoringProperties.ConfidenceIsNeverCapped | api/scoring_engine.py:211-212 | the cap at 1.0 never changes the confidence of an engine run: it equals the winning affinity |
| ScoringProperties.ProtectiveStrengthIsTwoTermMean | api/scoring_engine.py:181-187 | the purposeful-activities branch is dead, so protective strength always averages social support and the coping count |
| ScoringProperties.SuicidalAnswerForcesEmergency | api/scoring_engine.py:276-281 | an affirmative suicidal answer yields the emergency flags and emergency mode when no stage raises |
| ScoringProperties.FaultMasksSuicidalAnswer | api/scoring_engine.py:397-407 | on an input with an affirmative suicidal answer and a list on sleep_quality, the fixed fallback result has emergency mode off |
| ScoringProperties.AnyFaultMasksSuicidalAnswer | api/scoring_engine.py:397-407 | whenever a tabled field holds a list, the fixed fallback result hides an affirmative suicidal answer: emergency mode stays off |
| ScoringProperties.EmptyCopingListScoresZero | api/scoring_engine.py:147-149 | an empty coping list scores 0, below the 1..5 scale |
| ScoringProperties.SleepTipNeverGiven | api/scoring_engine.py:347-348 | the sleep recommendation is unreachable: the domain dictionary has no sleep entry, so its default of 60 is read |
| ScoringProperties.FallbackSummaryShape | api/scoring_engine.py:342-359 | the static summary is the template, then the connection sentence when social engagement is below 50, then the support sentence when protective strength is above 70 |
| ScoringProperties.MissingKeyReplyBecomesSummary | api/scoring_engine.py:327-329 | the failure check compares for exact equality, so the client's longer missing-key message becomes the summary |
| Chat.MentionsDecidesExpresses | simple_app.py:1219 | the executable keyword test on the lower-cased text decides the keyword relation |
| Chat.MatchingCategories | simple_app.py:1456-1462 | the categories returned are exactly those whose keywords occur, in declaration order, without repeats |
| Chat.FirstMatchingCategory | simple_app.py:1388-1392 | the position returned is the first category whose keywords occur |
| Chat.UserEmotionalState | simple_app.py:1080-1106 | mood is low, anxious or positive exactly when the lower-cased recent mood is in that group; energy and stress follow the mood; support is low iff there are no journal entries |
| Chat.DetectEmergencyIndicators | simple_app.py:1108-1123 | crisis is detected iff a user-authored item among the last five mentions an indicator; an empty history is never a crisis |
| Chat.AnalyzeMessageForFeatures | simple_app.py:1217-1271 | a feature is suggested iff one of its indicators occurs; suggestions keep the fixed order and never repeat |
| Chat.GetFallbackResponse | simple_app.py:1308-1360 | the crisis reply iff emergency mode; otherwise the reply of the first keyword group that occurs, with no earlier group matching; greeting and default replies take the new-user, low, anxious or other variant |
| Chat.GroupReply | simple_app.py:1317-1360 | keyword group g gives the reply of precedence g+1; past the last group the default reply |
| Chat.DetectDominantEmotion | simple_app.py:1374-1392 | neutral iff no emotion's keywords occur; otherwise the first emotion whose keywords occur |
| Chat.AnalyzeJournalEmotions | simple_app.py:1442-1462 | an emotion is reported iff one of its keywords occurs; reports keep declaration order without repeats |
| Chat.CalculateEnergyShift | simple_app.py:1394-1406 | "+15%" iff a high-energy word occurs; "-15%" iff only a low-energy word occurs; "0%" otherwise |
| Chat.DetermineReflectiveDepth | simple_app.py:1408-1420 | "deep" iff a reflection word occurs; "light" iff only a surface word occurs; "balanced" otherwise |
| Journal.CalculateJournalStreak | simple_app.py:499-531 | every day from today back over the streak has an entry, the day before the streak has none, and the streak is at most the number of entries |
| Journal.DaysBoundedByEntries | simple_app.py:505-516 | the set of days with a parsable entry has no more days than there are entries |
| Journal.FloorDiv | simple_app.py:369 | Python's `//`: the largest integer whose product with the divisor does not exceed the dividend (for positive divisors) |
| Journal.SliceBound | simple_app.py:357-359 | a slice bound is clamped to 0..len after a negative bound is counted from the end |
| Journal.PySlice | simple_app.py:359 | `s[i:j]` has as many entries as the clamped bounds are apart (none when they cross), and its k-th entry is the entry k places after the clamped start |
| Journal.Paginate | simple_app.py:357-370 | a page size of 0 fails (division by zero); otherwise total and current page are echoed |
| Journal.PageCountIsCeiling | simple_app.py:369 | the page count is the least number of pages of the given size that holds every entry |
| Journal.PageIsWindow | simple_app.py:357-359 | page p holds at most per_page entries, namely the entries from (p-1)*per_page on, and is empty past the end |
| Journal.EntryOnItsPage | simple_app.py:357-370 | entry k is item k mod per_page of page k div per_page + 1, and that page is within the page count |
| Onboarding.QuestionsFrom | static/js/onboarding.js:16-367 | the questionnaire list holds the page's questions position by position |
| Onboarding.ShownAtSound | static/js/onboarding.js:370-377 | the filter keeps only questions of the list that are shown at the level |
| Onboarding.ShownAtComplete | static/js/onboarding.js:370-377 | every question of the list shown at the level survives the filter |
| Onboarding.ShownAtOrdered | static/js/onboarding.js:370-377 | the filter keeps the list order |
| Onboarding.ShownAtEverything | static/js/onboarding.js:370-377 | when every question is shown the filter returns the list unchanged |
| Onboarding.FullLevelShowsAll | static/js/onboarding.js:370-377 | every level other than "light" shows the whole questionnaire |
| Onboarding.LightLevelDropsBeliefQuestions | static/js/onboarding.js:197-266 | the light level shows a question iff it is not one of the five conditional belief questions |
| Onboarding.FilteredQuestionsInPageOrder | static/js/onboarding.js:370-377 | every level shows its questions in page order |
| Onboarding.LevelQuestionOnlyFirst | static/js/onboarding.js:16-31 | the level question is the first question and no later question has its id |
| Onboarding.LevelQuestionFirst | static/js/onboarding.js:370-377 | at every level the filtered list is non-empty and the level question is first and only first |
| Onboarding.CurrentQuestion | static/js/onboarding.js:467-471 | there is a current question iff the cursor is inside the filtered list, and it is shown at the level |
| Onboarding.CollectCurrentResponse | static/js/onboarding.js:467-501 | a truthy response other than skip or prefer-not-to-say overwrites the current question's entry and nothing else; otherwise nothing changes; a recorded answer to the level question sets the level from that answer, and the level changes in no other way; the cursor stays valid |
| Onboarding.ShowNextQuestion | static/js/onboarding.js:503-522 | after collecting, the cursor advances iff a later question of the new level exists; on arrival Previous shows and Submit replaces Next exactly on the last question; the cursor stays valid |
| Onboarding.ShowPreviousQuestion | static/js/onboarding.js:524-536 | the cursor retreats iff it is past the first question, without touching responses; Next shows, Submit hides, Previous hides on the first question and otherwise keeps its visibility |
| Onboarding.InitialIsValid | static/js/onboarding.js:11-13 | the page starts at step 0 with no responses at the "balanced" level, and that cursor points at the level question |
| Onboarding.NextThenPreviousReturns | static/js/onboarding.js:503-536 | going back right after advancing returns to the question just answered with its answer kept |
| Onboarding.SkipKeepsEarlierAnswer | static/js/onboarding.js:476-501 | choosing Skip or Prefer-not-to-say on a single-choice question records nothing and keeps an earlier answer |
| Onboarding.CheckboxAnswerAlwaysRecorded | static/js/onboarding.js:483-494 | a checkbox question always records the list of checked values, the empty list and the Skip radio included |
| Onboarding.ChoosingLightHidesBeliefQuestions | static/js/onboarding.js:493-510 | answering "light" on the level question and pressing Next switches the page to the light level, records the answer, and leaves every conditional belief question out of the filtered list |

## Left out

- HTTP routes, authentication, the database and session storage: they are I/O around the modelled logic.
- `call_gemini` (`simple_app.py:50-75`): the network client is the parameter `generate`. The text of the prompt is not modelled, only the data it carries.
- Float rounding: `round(..., 1)` on the index and `round(..., 2)` on the confidence are not modelled. Scores are exact reals.
- `processed_at` timestamps and the server-side logging (`print`) are not modelled.
- Scoring.ProcessOnboardingData: the fallback result's empty `domain_scores` dictionary is `None`. Its risk dictionary has only the stable priority, and is modelled as all flags off at priority Stable.
- Scoring.ProcessOnboardingData: the only fault modelled inside the `try` is the unhashable-list `TypeError`. Answers are strings or lists of strings, so the other JSON value types (numbers, booleans, objects) and the faults they could cause are left out.
- Journal.CalculateJournalStreak: `datetime.fromisoformat` is not modelled. An entry's date is a day number, or absent when it does not parse. `date.today()` is a parameter.
- Scoring.GenerateSummaryText: the `try`/`except Exception: pass` around the import of `call_gemini` and the call itself (`api/scoring_engine.py:302-331`) is not modelled. A failing import or a raising generator also falls back to the static summary, but `generate` is a total function here and cannot raise.
- Journal.CalculateJournalStreak: entries are stamped with `datetime.utcnow()` (`api/json_db.py:60`) while the streak counts back from the local `date.today()`. Near midnight the two calendars can disagree; the model takes both days as given numbers and does not relate them.
- Journal.Paginate: the sort by `created_at` before slicing is not modelled. The list is taken as already sorted. The request-parameter defaults (10 and 20) live at the call site.
- Text.Lower: only ASCII letters are lower-cased. Python's `str.lower` also folds non-ASCII letters.
- Chat.CalculateEnergyShift: the unused `emotional_state` argument is dropped.
- Chat.DetectEmergencyIndicators: the unused `user_context` argument is dropped.
- Chat.AnalyzeMessageForFeatures: the unused `user_context` argument is dropped.
- Session summaries, session insights, conversation-flow guidance and the journal fallback reply are left out. They format text around the modelled classifiers.
- Onboarding: rendering (`showQuestion`, `updateProgress`), the re-checking of earlier answers and form submission are left out. The initial button visibility comes from the page markup and is a parameter of `Initial`. The free-text `_custom` inputs are left out because `collectCurrentResponse` never reads them.
- Onboarding.LevelValue: the model adopts only a string answer as the level. The level question is single-choice, so its answer is always a string.

=== FILE: chat.dfy ===
/** The pure text classifiers behind the chat companion and the journal:
    emotional state, crisis detection, feature suggestions, the fallback reply
    when the text generator is unavailable, and the session-insight labels.
    Every keyword test is a substring test on the lower-cased message. */
module Chat {
  import opened Wrappers
  import opened Text
  import Seqs

  /** Some word of `words` occurs in the lower-cased `text`. */
  ghost predicate Expresses(words: seq<string>, text: string) {
    exists k :: 0 <= k < |words| && IsSubstring(words[k], Lower(text))
  }

  /** The executable keyword test decides `Expresses`. */
  lemma MentionsDecidesExpresses(words: seq<string>, text: string)
    ensures MentionsAny(words, Lower(text)) <==> Expresses(words, text)
  {
    MentionsAnyIff(words, Lower(text));
  }

  /** The categories of `order` whose words occur in `text`, in order: the
      shape of a Python loop that appends every matching category. */
  function MatchingCategories<T>(order: seq<T>, words: T -> seq<string>, text: string): (r: seq<T>)
    ensures Seqs.Subsequence(r, order)
    ensures Seqs.NoDuplicates(order) ==> Seqs.NoDuplicates(r)
    ensures forall i :: 0 <= i < |r| ==> r[i] in order && Expresses(words(r[i]), text)
    ensures forall i :: 0 <= i < |order| && Expresses(words(order[i]), text) ==> order[i] in r
  {
    var lower := Lower(text);
    assert forall i :: 0 <= i < |order| ==> (MentionsAny(words(order[i]), lower) <==> Expresses(words(order[i]), text)) by {
      forall i | 0 <= i < |order| {
        MentionsDecidesExpresses(words(order[i]), text);
      }
    }
    var r := Seqs.Filter(order, c => MentionsAny(words(c), lower));
    assert forall i :: 0 <= i < |r| ==> MentionsAny(words(r[i]), lower);
    assert forall i :: 0 <= i < |r| ==> Expresses(words(r[i]), text) by {
      forall i | 0 <= i < |r| {
        MentionsDecidesExpresses(words(r[i]), text);
      }
    }
    r
  }

  /** The position of the first category of `order` whose words occur in
      `text`, or `|order|`: the shape of a Python loop that returns the first
      matching category. */
  function FirstMatchingCategory<T>(order: seq<T>, words: T -> seq<string>, text: string): (i: nat)
    ensures i <= |order|
    ensures i < |order| ==> Expresses(words(order[i]), text)
    ensures forall j :: 0 <= j < i ==> !Expresses(words(order[j]), text)
  {
    var lower := Lower(text);
    assert forall j :: 0 <= j < |order| ==> (MentionsAny(words(order[j]), lower) <==> Expresses(words(order[j]), text)) by {
      forall j | 0 <= j < |order| {
        MentionsDecidesExpresses(words(order[j]), text);
      }
    }
    Seqs.FirstIndex(order, c => MentionsAny(words(c), lower))
  }

  // ---------------------------------------------------------------------------
  // Emotional state
  // ---------------------------------------------------------------------------

  /** The parts of the user context the classifiers read. */
  datatype UserContext = UserContext(recentMood: Option<string>, totalEntries: Option<int>, isNewUser: bool)

  datatype EmotionalState = EmotionalState(mood: string, energyLevel: string, stressLevel: string, supportLevel: string)

  const LowMoods: seq<string> := ["sad", "depressed", "down"]
  const AnxiousMoods: seq<string> := ["anxious", "worried", "stressed"]
  const PositiveMoods: seq<string> := ["happy", "excited", "good"]

  /** The recent mood is present, non-empty and, lower-cased, one of `group`. */
  predicate RecentMoodIn(ctx: UserContext, group: seq<string>) {
    ctx.recentMood.Some? && ctx.recentMood.value != "" && Lower(ctx.recentMood.value) in group
  }

  /** `get_user_emotional_state`: fixed defaults, adjusted for three mood
      groups, with low support for a user without journal entries. */
  function UserEmotionalState(ctx: UserContext): (s: EmotionalState)
    ensures s.mood == "low" <==> RecentMoodIn(ctx, LowMoods)
    ensures s.mood == "anxious" <==> RecentMoodIn(ctx, AnxiousMoods)
    ensures s.mood == "positive" <==> RecentMoodIn(ctx, PositiveMoods)
    ensures s.mood != "low" && s.mood != "anxious" && s.mood != "positive" ==> s.mood == "neutral"
    ensures s.energyLevel == (if s.mood == "low" then "low" else if s.mood == "positive" then "high" else "medium")
    ensures s.stressLevel == (if s.mood == "anxious" then "high" else "low")
    ensures s.supportLevel == "low" <==> ctx.totalEntries.GetOr(0) == 0
    ensures s.supportLevel != "low" ==> s.supportLevel == "medium"
  {
    var state := EmotionalState("neutral", "medium", "low", "medium");
    var state :=
      if ctx.recentMood.Some? && ctx.recentMood.value != "" then
        var mood := Lower(ctx.recentMood.value);
        if mood in LowMoods then state.(mood := "low", energyLevel := "low")
        else if mood in AnxiousMoods then state.(mood := "anxious", stressLevel := "high")
        else if mood in PositiveMoods then state.(mood := "positive", energyLevel := "high")
        else state
      else state;
    if ctx.totalEntries.GetOr(0) == 0 then state.(supportLevel := "low") else state
  }

  // ---------------------------------------------------------------------------
  // Crisis detection
  // ---------------------------------------------------------------------------

  /** One chat-history item; `content` is absent when the item has none. */
  datatype ChatMessage = ChatMessage(content: Option<string>, isUser: bool)

  const EmergencyIndicators: seq<string> := [
    "suicide", "kill myself", "end it all", "not worth living",
    "hopeless", "no point", "give up", "can't go on",
    "self harm", "hurt myself", "cut myself"
  ]

  /** A message the user wrote that contains a crisis indicator. */
  ghost predicate Alarming(m: ChatMessage) {
    m.isUser && Expresses(EmergencyIndicators, m.content.GetOr(""))
  }

  /** Index of the first of the last five history items (`history[-5:]`). */
  function WindowStart(history: seq<ChatMessage>): nat {
    if |history| <= 5 then 0 else |history| - 5
  }

  /** `detect_emergency_indicators`: some user-authored message among the last
      five history items mentions a crisis indicator. */
  function DetectEmergencyIndicators(history: seq<ChatMessage>): (r: bool)
    ensures r <==> exists i :: WindowStart(history) <= i < |history| && Alarming(history[i])
    ensures |history| == 0 ==> !r
  {
    assert forall i :: 0 <= i < |history| ==>
      (MentionsAny(EmergencyIndicators, Lower(history[i].content.GetOr(""))) <==> Expresses(EmergencyIndicators, history[i].content.GetOr(""))) by {
      forall i | 0 <= i < |history| {
        MentionsDecidesExpresses(EmergencyIndicators, history[i].content.GetOr(""));
      }
    }
    exists i :: WindowStart(history) <= i < |history|
      && history[i].isUser && MentionsAny(EmergencyIndicators, Lower(history[i].content.GetOr("")))
  }

  // ---------------------------------------------------------------------------
  // Feature suggestions
  // ---------------------------------------------------------------------------

  datatype Feature = PrivateJournal | OpenJournal | MoodTracker | WeeklyProgress | TipsAdvice

  /** The order in which suggestions are appended. */
  const FeatureOrder: seq<Feature> := [PrivateJournal, OpenJournal, MoodTracker, WeeklyProgress, TipsAdvice]

  function FeatureRank(f: Feature): nat {
    match f
    case PrivateJournal => 0
    case OpenJournal => 1
    case MoodTracker => 2
    case WeeklyProgress => 3
    case TipsAdvice => 4
  }

  /** Every feature is listed, at its rank. */
  lemma FeatureListed(f: Feature)
    ensures FeatureRank(f) < |IndicatorTable| && FeatureOrder[FeatureRank(f)] == f
  {
  }

  lemma FeatureOrderDistinct()
    ensures Seqs.NoDuplicates(FeatureOrder)
  {
  }

  /** The phrases that suggest a feature. */
  const IndicatorTable: seq<seq<string>> := [
    [
      "want to write", "need to process", "want to reflect", "should journal",
      "write about", "put into words", "capture this", "record this",
      "work through", "figure out", "understand better", "make sense of"],
    [
      "share with others", "community", "other people", "connect with",
      "not alone", "others might", "help someone", "relate to"],
    [
      "track my mood", "monitor my mood", "log my mood", "record my mood",
      "mood patterns", "track feelings", "mood over time", "mood changes"],
    [
      "my progress", "my data", "my insights", "my patterns",
      "how i've been", "my journey", "see my growth", "my stats"],
    [
      "help me", "what should i do", "how do i", "advice",
      "tips for", "guidance", "what can i do", "suggestions"]
  ]

  function Indicators(f: Feature): seq<string> {
    IndicatorTable[FeatureRank(f)]
  }

  /** `analyze_message_for_features`: the features whose phrases occur in the
      message, each once, in the fixed order. */
  function AnalyzeMessageForFeatures(message: string): (r: seq<Feature>)
    ensures Seqs.Subsequence(r, FeatureOrder)
    ensures Seqs.NoDuplicates(r)
    ensures forall f :: f in r <==> Expresses(Indicators(f), message)
  {
    FeatureOrderDistinct();
    var r := MatchingCategories(FeatureOrder, Indicators, message);
    forall f: Feature ensures f in r <==> Expresses(Indicators(f), message) {
      FeatureListed(f);
      assert FeatureOrder[FeatureRank(f)] == f;
    }
    r
  }

  // ---------------------------------------------------------------------------
  // Fallback reply
  // ---------------------------------------------------------------------------

  /** Which of the four greeting or default variants applies. */
  datatype Tone = NewUser | LowMood | AnxiousMood | OtherMood

  /** The variant chosen inside the greeting and default branches: a new user
      first, then a low mood, then an anxious mood. */
  function ToneOf(ctx: UserContext, state: EmotionalState): Tone {
    if ctx.isNewUser then NewUser
    else if state.mood == "low" then LowMood
    else if state.mood == "anxious" then AnxiousMood
    else OtherMood
  }

  /** The canned reply chosen when the generator is unavailable; each
      constructor stands for one fixed reply text. */
  datatype Reply =
    | CrisisReply
    | Greeting(tone: Tone)
    | SadnessSupport
    | StressSupport
    | Celebration
    | FrustrationPrompt
    | LonelinessPrompt
    | DayPrompt
    | HelpPrompt
    | DefaultReply(tone: Tone)

  const Greetings: seq<string> := ["hello", "hi", "hey", "good morning", "good afternoon", "good evening"]
  const SadWords: seq<string> := ["sad", "depressed", "down", "upset", "hurt", "empty", "numb"]
  const StressWords: seq<string> := ["stressed", "anxious", "worried", "overwhelmed", "panic"]
  const PositiveWords: seq<string> := ["happy", "excited", "good", "great", "wonderful", "grateful"]
  const FrustrationWords: seq<string> := ["frustrated", "angry", "mad", "irritated"]
  const LonelinessWords: seq<string> := ["lonely", "isolated", "alone", "disconnected"]
  const DayWords: seq<string> := ["day", "today", "yesterday", "weekend", "happened"]
  const HelpWords: seq<string> := ["help", "advice", "what should i do", "stuck"]

  /** The keyword groups, in the order the replies test them. */
  const ReplyGroups: seq<seq<string>> :=
    [Greetings, SadWords, StressWords, PositiveWords, FrustrationWords, LonelinessWords, DayWords, HelpWords]

  /** The position of a reply in the precedence order: 0 for the crisis
      reply, 1..8 for the keyword groups, 9 for the default. */
  function Precedence(r: Reply): nat {
    match r
    case CrisisReply => 0
    case Greeting(_) => 1
    case SadnessSupport => 2
    case StressSupport => 3
    case Celebration => 4
    case FrustrationPrompt => 5
    case LonelinessPrompt => 6
    case DayPrompt => 7
    case HelpPrompt => 8
    case DefaultReply(_) => 9
  }

  /** `get_fallback_response`: the crisis reply in emergency mode, otherwise
      the reply of the first keyword group the message mentions, otherwise the
      default reply. */
  function GetFallbackResponse(message: string, ctx: UserContext, state: EmotionalState, emergencyMode: bool): (r: Reply)
    ensures r == CrisisReply <==> emergencyMode
    ensures 1 <= Precedence(r) <= 8 ==> Expresses(ReplyGroups[Precedence(r) - 1], message)
    ensures forall g :: 0 <= g < Precedence(r) - 1 && g < 8 ==> !Expresses(ReplyGroups[g], message)
    ensures r.Greeting? ==> r.tone == ToneOf(ctx, state)
    ensures r.DefaultReply? ==> r.tone == ToneOf(ctx, state)
  {
    if emergencyMode then CrisisReply
    else GroupReply(FirstMatchingCategory(ReplyGroups, words => words, message), ToneOf(ctx, state))
  }

  /** The reply of keyword group `g`, or the default reply past the last
      group. */
  function GroupReply(g: nat, tone: Tone): (r: Reply)
    ensures g < |ReplyGroups| ==> Precedence(r) == g + 1
    ensures g >= |ReplyGroups| ==> r == DefaultReply(tone)
    ensures r.Greeting? ==> r.tone == tone
  {
    if g == 0 then Greeting(tone)
    else if g == 1 then SadnessSupport
    else if g == 2 then StressSupport
    else if g == 3 then Celebration
    else if g == 4 then FrustrationPrompt
    else if g == 5 then LonelinessPrompt
    else if g == 6 then DayPrompt
    else if g == 7 then HelpPrompt
    else DefaultReply(tone)
  }

  // ---------------------------------------------------------------------------
  // Emotion labels
  // ---------------------------------------------------------------------------

  datatype Emotion = Sadness | Anxiety | Anger | Joy | Fear | Loneliness | Confusion

  /** The categories in declaration order. */
  const EmotionOrder: seq<Emotion> := [Sadness, Anxiety, Anger, Joy, Fear, Loneliness, Confusion]

  function EmotionRank(e: Emotion): nat {
    match e
    case Sadness => 0
    case Anxiety => 1
    case Anger => 2
    case Joy => 3
    case Fear => 4
    case Loneliness => 5
    case Confusion => 6
  }

  /** The keywords `detect_dominant_emotion` uses. */
  const DominantTable: seq<seq<string>> := [
    ["sad", "depressed", "down", "upset", "hurt", "crying", "tears"],
    ["anxious", "worried", "stressed", "nervous", "panic", "overwhelmed"],
    ["angry", "mad", "frustrated", "irritated", "annoyed"],
    ["happy", "excited", "good", "great", "wonderful", "amazing"],
    ["scared", "afraid", "terrified", "fearful"],
    ["lonely", "alone", "isolated", "disconnected"],
    ["confused", "lost", "unclear", "unsure"]
  ]

  function DominantKeywords(e: Emotion): seq<string> {
    DominantTable[EmotionRank(e)]
  }

  /** The longer keyword lists `analyze_journal_emotions` uses. */
  const JournalTable: seq<seq<string>> := [
    ["sad", "depressed", "down", "upset", "hurt", "crying", "tears", "empty", "numb"],
    ["anxious", "worried", "stressed", "nervous", "panic", "overwhelmed", "scared"],
    ["angry", "mad", "frustrated", "irritated", "annoyed", "rage"],
    ["happy", "excited", "good", "great", "wonderful", "amazing", "grateful", "blessed"],
    ["scared", "afraid", "terrified", "fearful", "worried"],
    ["lonely", "alone", "isolated", "disconnected", "empty"],
    ["confused", "lost", "unclear", "unsure", "mixed up"]
  ]

  function JournalKeywords(e: Emotion): seq<string> {
    JournalTable[EmotionRank(e)]
  }

  /** Every emotion is listed, at its rank. */
  lemma EmotionListed(e: Emotion)
    ensures EmotionRank(e) < |DominantTable| && EmotionRank(e) < |JournalTable|
    ensures EmotionOrder[EmotionRank(e)] == e
  {
  }

  /** The emotion listed at position `i` has rank `i`. */
  lemma RankOfListed(i: nat)
    requires i < |EmotionOrder|
    ensures EmotionRank(EmotionOrder[i]) == i
  {
  }

  lemma EmotionOrderDistinct()
    ensures Seqs.NoDuplicates(EmotionOrder)
  {
  }

  /** The result of `detect_dominant_emotion`: an emotion, or "neutral". */
  datatype Dominant = Neutral | Dominant(emotion: Emotion)

  /** `detect_dominant_emotion`: the first emotion in declaration order whose
      keywords occur in the message, or neutral when none does. */
  function DetectDominantEmotion(message: string): (r: Dominant)
    ensures r == Neutral <==> forall e :: !Expresses(DominantKeywords(e), message)
    ensures r.Dominant? ==> Expresses(DominantKeywords(r.emotion), message)
    ensures r.Dominant? ==> forall e :: EmotionRank(e) < EmotionRank(r.emotion) ==> !Expresses(DominantKeywords(e), message)
  {
    var i := FirstMatchingCategory(EmotionOrder, DominantKeywords, message);
    forall e: Emotion | EmotionRank(e) < i ensures !Expresses(DominantKeywords(e), message) {
      EmotionListed(e);
    }
    if i < |EmotionOrder| then
      RankOfListed(i);
      Dominant(EmotionOrder[i])
    else Neutral
  }

  /** `analyze_journal_emotions`: every emotion whose keywords occur in the
      entry, each once, in declaration order. */
  function AnalyzeJournalEmotions(entry: string): (r: seq<Emotion>)
    ensures Seqs.Subsequence(r, EmotionOrder)
    ensures Seqs.NoDuplicates(r)
    ensures forall e :: e in r <==> Expresses(JournalKeywords(e), entry)
  {
    EmotionOrderDistinct();
    var r := MatchingCategories(EmotionOrder, JournalKeywords, entry);
    forall e: Emotion ensures e in r <==> Expresses(JournalKeywords(e), entry) {
      EmotionListed(e);
    }
    r
  }

  // ---------------------------------------------------------------------------
  // Energy shift and reflective depth
  // ---------------------------------------------------------------------------

  const HighEnergyWords: seq<string> := ["excited", "energetic", "motivated", "pumped", "thrilled"]
  const LowEnergyWords: seq<string> := ["tired", "exhausted", "drained", "lethargic", "sluggish"]

  /** `calculate_energy_shift`: high-energy words win over low-energy words.
      The emotional-state argument of the source is unused and omitted. */
  function CalculateEnergyShift(message: string): (r: string)
    ensures r == "+15%" || r == "-15%" || r == "0%"
    ensures r == "+15%" <==> Expresses(HighEnergyWords, message)
    ensures r == "-15%" <==> !Expresses(HighEnergyWords, message) && Expresses(LowEnergyWords, message)
  {
    var lower := Lower(message);
    MentionsDecidesExpresses(HighEnergyWords, message);
    MentionsDecidesExpresses(LowEnergyWords, message);
    if MentionsAny(HighEnergyWords, lower) then "+15%"
    else if MentionsAny(LowEnergyWords, lower) then "-15%"
    else "0%"
  }

  const DeepWords: seq<string> := ["understand", "realize", "aware", "insight", "pattern", "meaning"]
  const SurfaceWords: seq<string> := ["fine", "okay", "good", "bad", "tired"]

  /** `determine_reflective_depth`: deep words win over surface words. */
  function DetermineReflectiveDepth(message: string): (r: string)
    ensures r == "deep" || r == "light" || r == "balanced"
    ensures r == "deep" <==> Expresses(DeepWords, message)
    ensures r == "light" <==> !Expresses(DeepWords, message) && Expresses(SurfaceWords, message)
  {
    var lower := Lower(message);
    MentionsDecidesExpresses(DeepWords, message);
    MentionsDecidesExpresses(SurfaceWords, message);
    if MentionsAny(DeepWords, lower) then "deep"
    else if MentionsAny(SurfaceWords, lower) then "light"
    else "balanced"
  }
}

=== FILE: journal.dfy ===
/** Journal arithmetic: the consecutive-day streak shown on the dashboard and
    the page arithmetic of the two journal listings. */
module Journal {
  import opened Wrappers

  // ---------------------------------------------------------------------------
  // Streak
  // ---------------------------------------------------------------------------

  /** A calendar day as a day number; the day before `d` is `d - 1`. */
  type Day = int

  /** Some entry was written on day `d`. Each entry carries the day of its
      timestamp, or `None` when the timestamp does not parse. */
  ghost predicate HasEntryOn(entries: seq<Option<Day>>, d: Day) {
    Some(d) in entries
  }

  /** `calculate_journal_streak`: the number of consecutive days, ending
      today, on each of which some entry was written. Entries whose timestamp
      does not parse are skipped. */
  method CalculateJournalStreak(entries: seq<Option<Day>>, today: Day) returns (streak: nat)
    ensures forall d :: today - streak < d <= today ==> HasEntryOn(entries, d)
    ensures !HasEntryOn(entries, today - streak)
    ensures streak <= |entries|
  {
    if |entries| == 0 {
      return 0;
    }
    var days: set<Day> := set e | e in entries && e.Some? :: e.value;
    assert forall d :: HasEntryOn(entries, d) <==> d in days by {
      forall d ensures HasEntryOn(entries, d) ==> d in days {
        if HasEntryOn(entries, d) {
          var e := Some(d);
          assert e in entries && e.Some?;
        }
      }
    }
    if days == {} {
      return 0;
    }
    streak := 0;
    ghost var counted: set<Day> := {};
    while today - streak in days
      invariant counted <= days
      invariant |counted| == streak
      invariant forall d :: d in counted <==> today - streak < d <= today
      decreases days - counted
    {
      counted := counted + {today - streak};
      streak := streak + 1;
    }
    DaysBoundedByEntries(entries, days);
    assert |counted| <= |days| by {
      SubsetCardinality(counted, days);
    }
  }

  /** A subset is no larger than its superset. */
  lemma {:induction false} SubsetCardinality<T>(a: set<T>, b: set<T>)
    requires a <= b
    ensures |a| <= |b|
    decreases |a|
  {
    if a != {} {
      var x :| x in a;
      SubsetCardinality(a - {x}, b - {x});
    }
  }

  /** There are no more distinct entry days than entries. */
  lemma {:induction false} DaysBoundedByEntries(entries: seq<Option<Day>>, days: set<Day>)
    requires days == set e | e in entries && e.Some? :: e.value
    ensures |days| <= |entries|
  {
    if |entries| > 0 {
      var rest := set e | e in entries[1..] && e.Some? :: e.value;
      DaysBoundedByEntries(entries[1..], rest);
      assert entries == [entries[0]] + entries[1..];
      if entries[0].Some? {
        assert days == rest + {entries[0].value};
      } else {
        assert days == rest;
      }
    }
  }

  // ---------------------------------------------------------------------------
  // Pagination
  // ---------------------------------------------------------------------------

  /** Python's `a // b`: division rounding toward negative infinity. */
  function FloorDiv(a: int, b: int): (q: int)
    requires b != 0
    ensures b > 0 ==> q * b <= a < q * b + b
    ensures b < 0 ==> q * b >= a > q * b + b
  {
    if b > 0 then a / b
    else if a % b == 0 then a / b
    else a / b - 1
  }

  /** A slice bound as Python normalises it for a sequence of length `n`:
      negative bounds count from the end, then the bound is clamped. */
  function SliceBound(i: int, n: nat): (r: nat)
    ensures r <= n
    ensures 0 <= i <= n ==> r == i
    ensures i > n ==> r == n
    ensures -(n as int) <= i < 0 ==> r as int == n as int + i
    ensures i < -(n as int) ==> r == 0
  {
    var j := if i < 0 then i + n else i;
    if j < 0 then 0 else if j > n then n else j
  }

  /** Python's `s[i:j]`. */
  function PySlice<T>(s: seq<T>, i: int, j: int): (r: seq<T>)
    ensures var lo, hi := SliceBound(i, |s|), SliceBound(j, |s|);
      && |r| == (if lo <= hi then hi - lo else 0)
      && forall k :: 0 <= k < |r| ==> r[k] == s[lo + k]
  {
    var lo := SliceBound(i, |s|);
    var hi := SliceBound(j, |s|);
    if lo <= hi then s[lo..hi] else []
  }

  /** The paging part of a journal listing reply. */
  datatype Page<T> = Page(items: seq<T>, total: nat, pages: int, currentPage: int)

  /** The request cannot be answered: `per_page` of 0 divides by zero. */
  datatype PageError = DivisionByZero

  /** The page arithmetic of the journal GET routes: the slice
      `[(page-1)*per_page, page*per_page)` of the sorted entries and the page
      count `(total + per_page - 1) // per_page`. The route's `page` and
      `per_page` arguments are taken as given (absent or unparsable arguments
      fall back to 1 and the route's default). */
  function Paginate<T>(all: seq<T>, page: int, perPage: int): (r: Result<Page<T>, PageError>)
    ensures r.Err? <==> perPage == 0
    ensures r.Ok? ==> r.value.total == |all| && r.value.currentPage == page
  {
    var start := (page - 1) * perPage;
    var items := PySlice(all, start, start + perPage);
    if perPage == 0 then Err(DivisionByZero)
    else Ok(Page(items, |all|, FloorDiv(|all| + perPage - 1, perPage), page))
  }

  /** With a positive page size the page count is the ceiling of
      `total / per_page`: just enough pages to hold every entry. */
  lemma PageCountIsCeiling<T>(all: seq<T>, page: int, perPage: int)
    requires perPage > 0
    ensures var p := Paginate(all, page, perPage).value.pages;
      && p * perPage >= |all|
      && (|all| > 0 ==> (p - 1) * perPage < |all|)
      && (|all| == 0 ==> p == 0)
  {
  }

  /** A page numbered from 1 is the window of at most `per_page` entries
      starting at `(page - 1) * per_page`, cut off at the end of the list. */
  lemma PageIsWindow<T>(all: seq<T>, page: int, perPage: int)
    requires page >= 1 && perPage >= 1
    ensures var items := Paginate(all, page, perPage).value.items;
      var start := (page - 1) * perPage;
      && |items| <= perPage
      && (start >= |all| ==> items == [])
      && (forall k :: 0 <= k < |items| ==> 0 <= start + k < |all| && items[k] == all[start + k])
  {
  }

  /** Every entry appears on exactly the page its index says: entry `k` is
      item `k % per_page` of page `k / per_page + 1`, and that page exists. */
  lemma EntryOnItsPage<T>(all: seq<T>, perPage: int, k: nat)
    requires perPage >= 1 && k < |all|
    ensures var page := k / perPage + 1;
      var r := Paginate(all, page, perPage).value;
      && page <= r.pages
      && k % perPage < |r.items|
      && r.items[k % perPage] == all[k]
  {
    var page := k / perPage + 1;
    var start := (page - 1) * perPage;
    assert start + k % perPage == k;
    assert start <= k;
    PageIsWindow(all, page, perPage);
    PageCountIsCeiling(all, page, perPage);
    var r := Paginate(all, page, perPage).value;
    assert start < |all|;
    var window := PySlice(all, start, start + perPage);
    assert r.items == window;
    assert |window| == (if start + perPage <= |all| then perPage else |all| - start);
    assert r.pages * perPage > (page - 1) * perPage;
    FactorOrder(r.pages, page - 1, perPage);
  }

  /** A positive factor reflects order: `a * c > b * c` implies `a > b`. */
  lemma FactorOrder(a: int, b: int, c: int)
    requires c > 0 && a * c > b * c
    ensures a > b
  {
  }
}

=== FILE: onboarding.dfy ===
/** The onboarding questionnaire page as a state machine. The page's state is
    the step cursor, the recorded answers and the chosen conversation level;
    the Next and Previous buttons move the cursor and record answers. The DOM
    is abstracted to the values of the current question's inputs. */
module Onboarding {
  import opened Wrappers
  import Seqs

  datatype Kind = Single | Multiple | FreeText

  /** The question ids, in page order. */
  datatype QuestionId =
    OnboardingLevel
    | EmploymentStatus
    | LivingSituation
    | TherapyHistory
    | Medication
    | PrimaryAffect
    | AffectDuration
    | MorningMood
    | SleepQuality
    | EnergyLevel
    | FocusLevel
    | SocialWithdrawal
    | AppetiteChange
    | BeliefSafety
    | BeliefTrust
    | BeliefControl
    | BeliefSelf
    | BeliefIntimacy
    | SocialSupport
    | CopingSkills
    | RecentTrauma
    | SuicidalThoughts
    | PersonalizationGoal
    | PurposefulActivities
    | StartPreference

  /** A question: its id, its input kind, and whether it is one of the
      belief questions that the light level leaves out. */
  datatype Question = Question(id: QuestionId, kind: Kind, conditional: bool)

  /** The number of questions on the page. */
  const QuestionCount: nat := 25

  /** The question at a position of the page. */
  function QuestionAt(i: nat): Question
    requires i < QuestionCount
  {
    if i == 0 then Question(OnboardingLevel, Single, false)
    else if i == 1 then Question(EmploymentStatus, Single, false)
    else if i == 2 then Question(LivingSituation, Single, false)
    else if i == 3 then Question(TherapyHistory, Single, false)
    else if i == 4 then Question(Medication, Single, false)
    else if i == 5 then Question(PrimaryAffect, Single, false)
    else if i == 6 then Question(AffectDuration, Single, false)
    else if i == 7 then Question(MorningMood, FreeText, false)
    else if i == 8 then Question(SleepQuality, Single, false)
    else if i == 9 then Question(EnergyLevel, Single, false)
    else if i == 10 then Question(FocusLevel, Single, false)
    else if i == 11 then Question(SocialWithdrawal, Single, false)
    else if i == 12 then Question(AppetiteChange, Single, false)
    else if i == 13 then Question(BeliefSafety, Single, true)
    else if i == 14 then Question(BeliefTrust, Single, true)
    else if i == 15 then Question(BeliefControl, Single, true)
    else if i == 16 then Question(BeliefSelf, Single, true)
    else if i == 17 then Question(BeliefIntimacy, Single, true)
    else if i == 18 then Question(SocialSupport, Single, false)
    else if i == 19 then Question(CopingSkills, Multiple, false)
    else if i == 20 then Question(RecentTrauma, Single, false)
    else if i == 21 then Question(SuicidalThoughts, Single, false)
    else if i == 22 then Question(PersonalizationGoal, Single, false)
    else if i == 23 then Question(PurposefulActivities, FreeText, false)
    else Question(StartPreference, Single, false)
  }

  /** The questions from position `i` to the end of the page. */
  function QuestionsFrom(i: nat): (qs: seq<Question>)
    requires i <= QuestionCount
    ensures |qs| == QuestionCount - i
    ensures forall k :: 0 <= k < |qs| ==> qs[k] == QuestionAt(i + k)
    decreases QuestionCount - i
  {
    if i == QuestionCount then [] else [QuestionAt(i)] + QuestionsFrom(i + 1)
  }

  /** The questionnaire, in page order. */
  const Questions: seq<Question> := QuestionsFrom(0)

  /** The question is shown at the given level. */
  predicate Shown(q: Question, level: string) {
    !(q.conditional && level == "light")
  }

  /** The questions of `xs` shown at a level, in their order
      (`Array.prototype.filter`). Its properties are the lemmas below, so
      that they are brought in only where a proof needs them. */
  function ShownAt(xs: seq<Question>, level: string): seq<Question> {
    if |xs| == 0 then []
    else if Shown(xs[0], level) then [xs[0]] + ShownAt(xs[1..], level)
    else ShownAt(xs[1..], level)
  }

  /** Only questions of `xs` that are shown survive the filter. */
  lemma {:induction false} ShownAtSound(xs: seq<Question>, level: string)
    ensures |ShownAt(xs, level)| <= |xs|
    ensures forall i :: 0 <= i < |ShownAt(xs, level)| ==>
      ShownAt(xs, level)[i] in xs && Shown(ShownAt(xs, level)[i], level)
  {
    if |xs| > 0 {
      ShownAtSound(xs[1..], level);
    }
  }

  /** Every shown question of `xs` survives the filter. */
  lemma {:induction false} ShownAtComplete(xs: seq<Question>, level: string)
    ensures forall i :: 0 <= i < |xs| && Shown(xs[i], level) ==> xs[i] in ShownAt(xs, level)
  {
    if |xs| > 0 {
      ShownAtComplete(xs[1..], level);
      assert forall i :: 1 <= i < |xs| ==> xs[i] == xs[1..][i - 1];
    }
  }

  /** The filter keeps the order of `xs`. */
  lemma {:induction false} ShownAtOrdered(xs: seq<Question>, level: string)
    ensures Seqs.Subsequence(ShownAt(xs, level), xs)
  {
    if |xs| > 0 {
      ShownAtOrdered(xs[1..], level);
      if !Shown(xs[0], level) {
        Seqs.SubsequenceOfTail(ShownAt(xs, level), xs);
      }
    }
  }

  /** A filter that shows everything returns `xs` itself. */
  lemma {:induction false} ShownAtEverything(xs: seq<Question>, level: string)
    requires forall i :: 0 <= i < |xs| ==> Shown(xs[i], level)
    ensures ShownAt(xs, level) == xs
  {
    if |xs| > 0 {
      ShownAtEverything(xs[1..], level);
    }
  }

  /** `getFilteredQuestions`: the questions shown at the current level, in
      page order. */
  function FilteredQuestions(level: string): seq<Question> {
    ShownAt(Questions, level)
  }

  /** Every level except "light" shows the whole questionnaire. */
  lemma FullLevelShowsAll(level: string)
    requires level != "light"
    ensures FilteredQuestions(level) == Questions
  {
    ShownAtEverything(Questions, level);
  }

  /** The light level shows exactly the questionnaire's questions that are not
      belief questions. */
  lemma LightLevelDropsBeliefQuestions(i: nat)
    requires i < |Questions|
    ensures Questions[i] in FilteredQuestions("light") <==> !Questions[i].conditional
  {
    ShownAtSound(Questions, "light");
    ShownAtComplete(Questions, "light");
  }

  /** Every level shows its questions in page order. */
  lemma FilteredQuestionsInPageOrder(level: string)
    ensures Seqs.Subsequence(FilteredQuestions(level), Questions)
  {
    ShownAtOrdered(Questions, level);
  }

  /** No question after the first has the level question's id. */
  lemma LevelQuestionOnlyFirst()
    ensures Questions[0] == Question(OnboardingLevel, Single, false)
    ensures forall i :: 0 <= i < |Questions[1..]| ==> Questions[1..][i].id != OnboardingLevel
  {
  }

  /** The filter keeps out an id that no question of `xs` has. */
  lemma {:induction false} ShownAtAvoidsId(xs: seq<Question>, level: string, id: QuestionId)
    requires forall i :: 0 <= i < |xs| ==> xs[i].id != id
    ensures forall i :: 0 <= i < |ShownAt(xs, level)| ==> ShownAt(xs, level)[i].id != id
  {
    if |xs| > 0 {
      ShownAtAvoidsId(xs[1..], level, id);
    }
  }

  /** At every level the level question is shown first and only there, so
      the filtered list is never empty. */
  lemma LevelQuestionFirst(level: string)
    ensures |FilteredQuestions(level)| > 0
    ensures FilteredQuestions(level)[0] == Questions[0]
    ensures Questions[0] == Question(OnboardingLevel, Single, false)
    ensures forall i :: 1 <= i < |FilteredQuestions(level)| ==> FilteredQuestions(level)[i].id != OnboardingLevel
  {
    LevelQuestionOnlyFirst();
    var rest := ShownAt(Questions[1..], level);
    assert FilteredQuestions(level) == [Questions[0]] + rest;
    ShownAtAvoidsId(Questions[1..], level, OnboardingLevel);
  }

  // ---------------------------------------------------------------------------
  // Reading and recording an answer
  // ---------------------------------------------------------------------------

  /** The current question's inputs: the values of its checked inputs in page
      order (the options, then the Skip and Prefer-not-to-say radios), and the
      text-area content when the question has one. */
  datatype Form = Form(checked: seq<string>, textArea: Option<string>)

  /** A response as `collectCurrentResponse` reads it. */
  datatype Response = Choice(value: string) | Choices(values: seq<string>) | Written(text: string)

  /** `collectCurrentResponse`'s reading of the form; `None` is `null`. A
      multiple-choice question reads every checked input, the Skip radios
      included. */
  function ReadResponse(q: Question, form: Form): Option<Response> {
    match q.kind
    case Single => if |form.checked| > 0 then Some(Choice(form.checked[0])) else None
    case Multiple => Some(Choices(form.checked))
    case FreeText =>
      match form.textArea
      case Some(t) => Some(Written(t))
      case None => None
  }

  /** JavaScript truthiness: empty strings are falsy, arrays never are. */
  predicate Truthy(r: Response) {
    match r
    case Choice(v) => v != ""
    case Choices(_) => true
    case Written(t) => t != ""
  }

  /** The response is the string `s` (`response === s`). */
  predicate IsString(r: Response, s: string) {
    r == Choice(s) || r == Written(s)
  }

  /** The recording rule: a truthy response other than the two skip values. */
  predicate Recordable(r: Response) {
    Truthy(r) && !IsString(r, "skip") && !IsString(r, "prefer_not_to_say")
  }

  /** The text of a single-choice or written response; the level question is
      single-choice, so the level always becomes a string. */
  function LevelValue(r: Response, current: string): string {
    match r
    case Choice(v) => v
    case Written(t) => t
    case Choices(_) => current
  }

  datatype Buttons = Buttons(prevShown: bool, nextShown: bool, submitShown: bool)

  /** The page state: `currentStep`, `responses`, `onboardingLevel`, and the
      visibility of the three buttons. */
  datatype State = State(step: int, responses: map<QuestionId, Response>, level: string, buttons: Buttons)

  /** The state after page load; the initial button visibility comes from the
      page markup, which is not part of this model. */
  function Initial(buttons: Buttons): State
  {
    State(0, map[], "balanced", buttons)
  }

  /** The cursor points at a question of the current level. */
  ghost predicate Valid(s: State) {
    0 <= s.step < |FilteredQuestions(s.level)|
  }

  /** The question under the cursor, if the cursor is on one. */
  function CurrentQuestion(s: State): (q: Option<Question>)
    ensures q.Some? <==> Valid(s)
    ensures q.Some? ==> Shown(q.value, s.level)
  {
    var qs := FilteredQuestions(s.level);
    ShownAtSound(Questions, s.level);
    if 0 <= s.step < |qs| then Some(qs[s.step]) else None
  }

  /** The response the form gives for the current question, if it is one to
      record. */
  function RecordedResponse(s: State, form: Form): Option<Response> {
    match CurrentQuestion(s)
    case None => None
    case Some(q) =>
      var r := ReadResponse(q, form);
      if r.Some? && Recordable(r.value) then r else None
  }

  /** `collectCurrentResponse`: record the current question's response if it
      is recordable, and adopt a recorded level answer as the new level. The
      cursor stays on a question of the (possibly new) level. */
  function CollectCurrentResponse(s: State, form: Form): (t: State)
    ensures t.step == s.step && t.buttons == s.buttons
    ensures RecordedResponse(s, form).None? ==> t == s
    ensures RecordedResponse(s, form).Some? ==>
      t.responses == s.responses[CurrentQuestion(s).value.id := RecordedResponse(s, form).value]
    ensures t.level != s.level ==>
      RecordedResponse(s, form).Some? && CurrentQuestion(s).value.id == OnboardingLevel &&
      t.level == LevelValue(t.responses[OnboardingLevel], s.level)
    ensures RecordedResponse(s, form).Some? && CurrentQuestion(s).value.id == OnboardingLevel ==>
      t.level == LevelValue(RecordedResponse(s, form).value, s.level)
    ensures Valid(s) ==> Valid(t)
  {
    var qs := FilteredQuestions(s.level);
    if !(0 <= s.step < |qs|) then s
    else
      var q := qs[s.step];
      match ReadResponse(q, form)
      case Some(r) =>
        if Recordable(r) then
          LevelQuestionFirst(s.level);
          LevelQuestionFirst(LevelValue(r, s.level));
          s.(responses := s.responses[q.id := r],
             level := if q.id == OnboardingLevel then LevelValue(r, s.level) else s.level)
        else s
      case None => s
  }

  /** `showNextQuestion`: record the current answer, then advance when a later
      question of the (possibly new) level exists; on arrival the Previous
      button shows, and Submit replaces Next exactly on the last question. */
  function ShowNextQuestion(s: State, form: Form): (t: State)
    ensures t.responses == CollectCurrentResponse(s, form).responses
    ensures t.level == CollectCurrentResponse(s, form).level
    ensures Valid(s) ==> Valid(t)
    ensures Valid(s) ==> (t.step == s.step + 1 <==> s.step < |FilteredQuestions(t.level)| - 1)
    ensures t.step != s.step + 1 ==> t == CollectCurrentResponse(s, form)
    ensures t.step == s.step + 1 ==>
      t.buttons.prevShown && t.buttons.nextShown != t.buttons.submitShown &&
      (t.buttons.submitShown <==> t.step == |FilteredQuestions(t.level)| - 1)
  {
    var c := CollectCurrentResponse(s, form);
    var n := |FilteredQuestions(c.level)|;
    if c.step < n - 1 then
      var step := c.step + 1;
      c.(step := step, buttons := Buttons(true, step != n - 1, step == n - 1))
    else c
  }

  /** `showPreviousQuestion`: step back without recording; the Previous button
      hides on the first question, Next shows and Submit hides. */
  function ShowPreviousQuestion(s: State): (t: State)
    ensures t.responses == s.responses && t.level == s.level
    ensures s.step <= 0 ==> t == s
    ensures s.step > 0 ==>
      t.step == s.step - 1 && t.buttons.nextShown && !t.buttons.submitShown &&
      (t.step == 0 ==> !t.buttons.prevShown)
    ensures s.step > 1 ==> t.buttons.prevShown == s.buttons.prevShown
    ensures Valid(s) ==> Valid(t)
  {
    if s.step > 0 then
      var step := s.step - 1;
      s.(step := step, buttons := Buttons(if step == 0 then false else s.buttons.prevShown, true, false))
    else s
  }

  // ---------------------------------------------------------------------------
  // Properties of the page's behaviour
  // ---------------------------------------------------------------------------

  /** The page starts on the first question of the default "balanced"
      level, the level question, with nothing answered yet. */
  lemma InitialIsValid(buttons: Buttons)
    ensures var s := Initial(buttons);
      s.step == 0 && s.responses == map[] && s.level == "balanced"
    ensures Valid(Initial(buttons))
    ensures CurrentQuestion(Initial(buttons)).value.id == OnboardingLevel
  {
  }

  /** Going back right after going forward returns to the question just
      answered, keeping the answer. */
  lemma NextThenPreviousReturns(s: State, form: Form)
    requires Valid(s) && ShowNextQuestion(s, form).step == s.step + 1
    ensures ShowPreviousQuestion(ShowNextQuestion(s, form)).step == s.step
    ensures ShowPreviousQuestion(ShowNextQuestion(s, form)).responses == CollectCurrentResponse(s, form).responses
  {
  }

  /** A Skip or Prefer-not-to-say choice on a single-choice question records
      nothing and keeps any earlier answer. */
  lemma SkipKeepsEarlierAnswer(s: State, form: Form)
    requires CurrentQuestion(s).Some? && CurrentQuestion(s).value.kind == Single
    requires |form.checked| > 0 && form.checked[0] in {"skip", "prefer_not_to_say"}
    ensures CollectCurrentResponse(s, form) == s
  {
  }

  /** A checkbox question is always recorded, because an array is truthy:
      with nothing ticked it records the empty list, and its Skip radio is
      recorded as the one-element list `["skip"]`. */
  lemma CheckboxAnswerAlwaysRecorded(s: State, form: Form)
    requires CurrentQuestion(s).Some? && CurrentQuestion(s).value.kind == Multiple
    ensures CollectCurrentResponse(s, form).responses ==
      s.responses[CurrentQuestion(s).value.id := Choices(form.checked)]
  {
  }

  /** Answering "light" on the level question and pressing Next switches the
      page to the light level, which hides the belief questions. */
  lemma ChoosingLightHidesBeliefQuestions(s: State, form: Form)
    requires s.step == 0 && form.checked == ["light"]
    ensures ShowNextQuestion(s, form).level == "light"
    ensures OnboardingLevel in ShowNextQuestion(s, form).responses
    ensures ShowNextQuestion(s, form).responses[OnboardingLevel] == Choice("light")
    ensures forall i :: 0 <= i < |Questions| && Questions[i].conditional ==>
      Questions[i] !in FilteredQuestions(ShowNextQuestion(s, form).level)
  {
    LevelQuestionFirst(s.level);
    assert CurrentQuestion(s) == Some(Questions[0]);
    assert RecordedResponse(s, form) == Some(Choice("light"));
    forall i | 0 <= i < |Questions| && Questions[i].conditional
      ensures Questions[i] !in FilteredQuestions("light")
    {
      LightLevelDropsBeliefQuestions(i);
    }
  }
}

=== FILE: scoring.dfy ===
/** The onboarding scoring engine: six pure stages that turn questionnaire
    answers into an assessment.

      Normalize -> CalculateDomainScores -> MentalHealthIndex
                -> DetermineCluster -> AssessRisk -> GenerateSummaryText

    Scores are exact rationals (`real`); the engine's float arithmetic and its
    final `round(x, 1)` / `round(x, 2)` are not modelled. */
module Scoring {
  import opened Wrappers

  // ---------------------------------------------------------------------------
  // Raw answers
  // ---------------------------------------------------------------------------

  /** One answer as the onboarding page posts it: a chosen value or typed
      text, or the list of ticked options of a multiple-choice question. */
  datatype Answer = Text(text: string) | Items(items: seq<string>)

  /** The posted `onboarding_data` dictionary; any key may be absent. */
  type Responses = map<string, Answer>

  /** Python truthiness of an answer: empty strings and empty lists are falsy. */
  predicate Truthy(a: Answer) {
    match a
    case Text(s) => s != ""
    case Items(xs) => xs != []
  }

  // ---------------------------------------------------------------------------
  // Normalisation tables
  // ---------------------------------------------------------------------------

  /** The thirteen fields that have a value-to-score table, in table order. */
  datatype Field =
    | SleepQuality | EnergyLevel | FocusLevel | SocialWithdrawal | AppetiteChange
    | PrimaryAffect | AffectDuration
    | BeliefSafety | BeliefTrust | BeliefControl | BeliefSelf | BeliefIntimacy
    | SocialSupport

  const Fields: seq<Field> := [
    SleepQuality, EnergyLevel, FocusLevel, SocialWithdrawal, AppetiteChange,
    PrimaryAffect, AffectDuration,
    BeliefSafety, BeliefTrust, BeliefControl, BeliefSelf, BeliefIntimacy,
    SocialSupport
  ]

  const FieldSet: set<Field> := {
    SleepQuality, EnergyLevel, FocusLevel, SocialWithdrawal, AppetiteChange,
    PrimaryAffect, AffectDuration,
    BeliefSafety, BeliefTrust, BeliefControl, BeliefSelf, BeliefIntimacy,
    SocialSupport
  }

  /** Every field is listed, at its table position. */
  lemma FieldListed(f: Field)
    ensures f in FieldSet && Fields[FieldIndex(f)] == f
  {
  }

  /** Position of a field in table order. */
  function FieldIndex(f: Field): nat {
    match f
    case SleepQuality => 0
    case EnergyLevel => 1
    case FocusLevel => 2
    case SocialWithdrawal => 3
    case AppetiteChange => 4
    case PrimaryAffect => 5
    case AffectDuration => 6
    case BeliefSafety => 7
    case BeliefTrust => 8
    case BeliefControl => 9
    case BeliefSelf => 10
    case BeliefIntimacy => 11
    case SocialSupport => 12
  }

  /** The dictionary key of a field. */
  function Key(f: Field): string {
    match f
    case SleepQuality => "sleep_quality"
    case EnergyLevel => "energy_level"
    case FocusLevel => "focus_level"
    case SocialWithdrawal => "social_withdrawal"
    case AppetiteChange => "appetite_change"
    case PrimaryAffect => "primary_affect"
    case AffectDuration => "affect_duration"
    case BeliefSafety => "belief_safety"
    case BeliefTrust => "belief_trust"
    case BeliefControl => "belief_control"
    case BeliefSelf => "belief_self"
    case BeliefIntimacy => "belief_intimacy"
    case SocialSupport => "social_support"
  }

  /** The per-field value-to-score table. */
  function Table(f: Field): map<string, int> {
    match f
    case SleepQuality =>
      map["pretty_good" := 4, "average" := 3, "not_great" := 2, "terrible" := 1, "prefer_not_to_say" := 3]
    case EnergyLevel =>
      map["high" := 5, "medium" := 3, "low" := 2, "drained" := 1, "prefer_not_to_say" := 3]
    case FocusLevel =>
      map["sharp_as_usual" := 5, "a_bit_off" := 3, "very_hard" := 1, "prefer_not_to_say" := 3]
    case SocialWithdrawal =>
      map["no" := 5, "sometimes" := 3, "quite_often" := 2, "almost_always" := 1, "prefer_not_to_say" := 3]
    case AppetiteChange =>
      map["normal" := 4, "less" := 2, "more" := 3, "cant_tell" := 3, "prefer_not_to_say" := 3]
    case PrimaryAffect =>
      map["tired" := 2, "okay" := 3, "anxious" := 2, "numb" := 1, "overwhelmed" := 1,
          "peaceful" := 4, "motivated" := 4, "sad" := 2, "other" := 3]
    case AffectDuration =>
      map["comes_and_goes" := 3, "weeks" := 2, "hard_to_tell" := 3]
    case BeliefSafety =>
      map["yes" := 5, "sometimes" := 3, "rarely" := 1, "prefer_not_to_say" := 3]
    case BeliefTrust =>
      map["yes" := 5, "depends" := 3, "not_really" := 1, "prefer_not_to_say" := 3]
    case BeliefControl =>
      map["mostly_yes" := 5, "sometimes" := 3, "not_much" := 1, "prefer_not_to_say" := 3]
    case BeliefSelf =>
      map["kind" := 5, "depends" := 3, "very_critical" := 1, "prefer_not_to_say" := 3]
    case BeliefIntimacy =>
      map["easy" := 5, "a_bit_hard" := 3, "very_difficult" := 1, "prefer_not_to_say" := 3]
    case SocialSupport =>
      map["yes_definitely" := 5, "maybe_one_or_two" := 3, "not_really" := 1, "prefer_not_to_say" := 3]
  }

  /** Every table maps onto the 1..5 scale. */
  lemma TableRange(f: Field, v: string)
    requires v in Table(f)
    ensures 1 <= Table(f)[v] <= 5
  {
  }

  // ---------------------------------------------------------------------------
  // Stage 1: normalisation
  // ---------------------------------------------------------------------------

  /** The exception the engine can raise: a non-empty list answer on a tabled
      field is unhashable, so looking it up in the table raises `TypeError`. */
  datatype Fault = UnhashableAnswer(key: string)

  /** The truthy text answer given for a field, if any. */
  function Chosen(raw: Responses, f: Field): Option<string> {
    if Key(f) in raw && raw[Key(f)].Text? && Truthy(raw[Key(f)]) then Some(raw[Key(f)].text)
    else None
  }

  /** The field holds a non-empty list, which the table lookup cannot hash. */
  predicate HoldsList(raw: Responses, f: Field) {
    Key(f) in raw && raw[Key(f)].Items? && Truthy(raw[Key(f)])
  }

  /** The score of one tabled field when its lookup does not raise:
      the table's value for a recognised answer, the neutral 3 otherwise. */
  function FieldScore(raw: Responses, f: Field): (r: int)
    ensures 1 <= r <= 5
    ensures Chosen(raw, f).Some? && Chosen(raw, f).value in Table(f) ==> r == Table(f)[Chosen(raw, f).value]
    ensures Chosen(raw, f).None? || Chosen(raw, f).value !in Table(f) ==> r == 3
  {
    match Chosen(raw, f)
    case Some(v) =>
      if v in Table(f) then TableRange(f, v); Table(f)[v] else 3
    case None => 3
  }

  /** `min(len(coping_skills), 5)` for a list, 3 for any other answer, and no
      entry at all when the key was not posted. */
  function CopingSkillsCount(raw: Responses): (r: Option<int>)
    ensures r.Some? <==> "coping_skills" in raw
    ensures r.Some? ==> 0 <= r.value <= 5
    ensures r.Some? && raw["coping_skills"].Items? ==> r.value <= |raw["coping_skills"].items|
    ensures r.Some? && raw["coping_skills"].Items? && |raw["coping_skills"].items| < 5 ==> r.value == |raw["coping_skills"].items|
    ensures r.Some? && raw["coping_skills"].Items? && |raw["coping_skills"].items| >= 5 ==> r.value == 5
    ensures r.Some? && raw["coping_skills"].Text? ==> r.value == 3
  {
    if "coping_skills" in raw then
      match raw["coping_skills"]
      case Items(xs) => Some(if |xs| < 5 then |xs| else 5)
      case Text(_) => Some(3)
    else None
  }

  /** The normalised dictionary. `purposefulActivities` stands for the
      `purposeful_activities` entry the domain stage probes for; normalisation
      never writes it. */
  datatype Normalized = Normalized(
    scores: map<Field, int>,
    copingSkillsCount: Option<int>,
    purposefulActivities: Option<int>)
  {
    /** `normalized.get(field, 3)` */
    function Get(f: Field): int {
      if f in scores then scores[f] else 3
    }

    /** `normalized.get('coping_skills_count', 3)` */
    function Coping(): int {
      copingSkillsCount.GetOr(3)
    }
  }

  /** What every normalised dictionary satisfies: tabled fields on the 1..5
      scale, the coping count in 0..5, and no purposeful-activities entry. */
  ghost predicate WellFormed(n: Normalized) {
    && (forall f :: 1 <= n.Get(f) <= 5)
    && 0 <= n.Coping() <= 5
    && n.purposefulActivities.None?
  }

  /** `normalize_responses`, with its `TypeError` as `Err`. */
  function Normalize(raw: Responses): (r: Result<Normalized, Fault>)
    ensures r.Err? <==> exists f :: HoldsList(raw, f)
    ensures r.Ok? ==> WellFormed(r.value)
    ensures r.Ok? ==> forall f :: f in r.value.scores
    ensures r.Ok? ==> forall f ::
      (Chosen(raw, f).Some? && Chosen(raw, f).value in Table(f) ==> r.value.Get(f) == Table(f)[Chosen(raw, f).value])
    ensures r.Ok? ==> forall f ::
      (Chosen(raw, f).None? || Chosen(raw, f).value !in Table(f) ==> r.value.Get(f) == 3)
    ensures r.Ok? ==> ("coping_skills" in raw <==> r.value.copingSkillsCount.Some?)
    ensures r.Ok? && "coping_skills" in raw && raw["coping_skills"].Items? ==>
      r.value.copingSkillsCount == Some(if |raw["coping_skills"].items| < 5 then |raw["coping_skills"].items| else 5)
    ensures r.Ok? && "coping_skills" in raw && raw["coping_skills"].Text? ==> r.value.copingSkillsCount == Some(3)
  {
    match FirstFault(raw)
    case Some(f) => Err(UnhashableAnswer(Key(f)))
    case None =>
      var n := NormalizedFrom(raw);
      assert forall f :: n.Get(f) == FieldScore(raw, f);
      Ok(n)
  }

  /** The first field, in `normalization_maps` order, whose answer the table
      lookup cannot hash. */
  function FirstFault(raw: Responses): (r: Option<Field>)
    ensures r.None? <==> forall f :: !HoldsList(raw, f)
    ensures r.Some? ==> HoldsList(raw, r.value)
  {
    var r := FaultFrom(raw, 0);
    if r.None? then
      assert forall f :: !HoldsList(raw, f) by {
        forall f: Field ensures !HoldsList(raw, f) {
          FieldListed(f);
        }
      }
      r
    else r
  }

  /** The first field from position `i` of `Fields` on whose answer the table
      lookup raises. */
  function FaultFrom(raw: Responses, i: nat): (r: Option<Field>)
    requires i <= |Fields|
    ensures r.None? <==> forall j :: i <= j < |Fields| ==> !HoldsList(raw, Fields[j])
    ensures r.Some? ==> HoldsList(raw, r.value)
    decreases |Fields| - i
  {
    if i == |Fields| then None
    else if HoldsList(raw, Fields[i]) then Some(Fields[i])
    else FaultFrom(raw, i + 1)
  }

  /** The normalised dictionary of answers whose table lookups do not raise. */
  function NormalizedFrom(raw: Responses): (n: Normalized)
    ensures forall f :: f in n.scores && n.scores[f] == FieldScore(raw, f)
    ensures n.copingSkillsCount == CopingSkillsCount(raw)
    ensures n.purposefulActivities.None?
    ensures WellFormed(n)
  {
    assert forall f :: f in FieldSet by {
      forall f: Field ensures f in FieldSet {
        FieldListed(f);
      }
    }
    Normalized(map f | f in FieldSet :: FieldScore(raw, f), CopingSkillsCount(raw), None)
  }

  // ---------------------------------------------------------------------------
  // Stage 2: domain scores
  // ---------------------------------------------------------------------------

  /** The five domain scores on the 0..100 scale. */
  datatype DomainScores = DomainScores(
    moodStability: real,
    energyFunction: real,
    socialEngagement: real,
    cognitiveFlexibility: real,
    protectiveStrength: real)
  {
    /** `domain_scores.get(name, default)`: the dictionary holds exactly the
        five domain names. The stages read a present domain through its field
        directly; `DomainLookupByName` states that this is the same. */
    function Get(name: string, default: real): real {
      if name == "mood_stability" then moodStability
      else if name == "energy_function" then energyFunction
      else if name == "social_engagement" then socialEngagement
      else if name == "cognitive_flexibility" then cognitiveFlexibility
      else if name == "protective_strength" then protectiveStrength
      else default
    }
  }

  /** Looking a domain up by its dictionary name yields its score; any other
      name yields the default. */
  lemma DomainLookupByName(d: DomainScores, name: string, default: real)
    ensures d.Get("mood_stability", default) == d.moodStability
    ensures d.Get("energy_function", default) == d.energyFunction
    ensures d.Get("social_engagement", default) == d.socialEngagement
    ensures d.Get("cognitive_flexibility", default) == d.cognitiveFlexibility
    ensures d.Get("protective_strength", default) == d.protectiveStrength
    ensures name !in DomainNames ==> d.Get(name, default) == default
  {
  }

  const DomainNames: set<string> :=
    {"mood_stability", "energy_function", "social_engagement", "cognitive_flexibility", "protective_strength"}

  /** Every domain score lies in `lo..hi`. */
  ghost predicate AllWithin(d: DomainScores, lo: real, hi: real) {
    && lo <= d.moodStability <= hi
    && lo <= d.energyFunction <= hi
    && lo <= d.socialEngagement <= hi
    && lo <= d.cognitiveFlexibility <= hi
    && lo <= d.protectiveStrength <= hi
  }

  /** `calculate_domain_scores`: plain means scaled by 20, except the energy
      domain, a weighted mean divided by the weight total 5.9. The cognitive
      domain averages trust, control and self only. */
  function CalculateDomainScores(n: Normalized): (d: DomainScores)
    ensures WellFormed(n) ==> AllWithin(d, 10.0, 100.0)
    ensures WellFormed(n) ==> d.protectiveStrength == (n.Get(SocialSupport) + n.Coping()) as real / 2.0 * 20.0
    ensures (forall f :: n.Get(f) == 3) && n.Coping() == 3 && n.purposefulActivities.None? ==>
      d == DomainScores(60.0, 60.0, 60.0, 60.0, 60.0)
  {
    var mood := (n.Get(PrimaryAffect) + n.Get(AffectDuration) + n.Get(SleepQuality)) as real / 3.0 * 20.0;
    var weighted :=
      n.Get(SleepQuality) as real * 1.2 + n.Get(EnergyLevel) as real * 1.3 + n.Get(FocusLevel) as real * 1.0
      + n.Get(SocialWithdrawal) as real * 1.4 + n.Get(AppetiteChange) as real * 1.0;
    var energy := weighted / (1.2 + 1.3 + 1.0 + 1.4 + 1.0) * 20.0;
    var social := (n.Get(SocialWithdrawal) + n.Get(BeliefIntimacy)) as real / 2.0 * 20.0;
    var cognitive := (n.Get(BeliefTrust) + n.Get(BeliefControl) + n.Get(BeliefSelf)) as real / 3.0 * 20.0;
    var protective :=
      match n.purposefulActivities
      case Some(p) => (n.Get(SocialSupport) + n.Coping() + p) as real / 3.0 * 20.0
      case None => (n.Get(SocialSupport) + n.Coping()) as real / 2.0 * 20.0;
    DomainScores(mood, energy, social, cognitive, protective)
  }

  // ---------------------------------------------------------------------------
  // Stage 3: composite index
  // ---------------------------------------------------------------------------

  /** The fixed domain weights; they sum to 1. */
  const MoodWeight: real := 0.25
  const EnergyWeight: real := 0.20
  const SocialWeight: real := 0.20
  const CognitiveWeight: real := 0.20
  const ProtectiveWeight: real := 0.15

  /** `calculate_mental_health_index` before its rounding to one decimal: a
      convex combination of the five domain scores. */
  function MentalHealthIndex(d: DomainScores): (r: real)
    ensures forall lo: real, hi: real :: AllWithin(d, lo, hi) ==> lo <= r <= hi
  {
    d.moodStability * MoodWeight + d.energyFunction * EnergyWeight + d.socialEngagement * SocialWeight
    + d.cognitiveFlexibility * CognitiveWeight + d.protectiveStrength * ProtectiveWeight
  }

  // ---------------------------------------------------------------------------
  // Stage 4: cluster classification
  // ---------------------------------------------------------------------------

  /** The five emotional-pattern clusters, in declaration order. */
  datatype Cluster = AffectiveLow | Anxiety | Burnout | StressOverload | Resilient

  const ClusterOrder: seq<Cluster> := [AffectiveLow, Anxiety, Burnout, StressOverload, Resilient]

  /** Position of a cluster in declaration order. */
  function Rank(c: Cluster): nat {
    match c
    case AffectiveLow => 0
    case Anxiety => 1
    case Burnout => 2
    case StressOverload => 3
    case Resilient => 4
  }

  /** The raw affinity of each cluster: four inversions of low scores, and a
      positive blend of protective factors for the resilient cluster. */
  function Affinity(c: Cluster, d: DomainScores, n: Normalized): real {
    match c
    case AffectiveLow =>
      ((5 - n.Get(SleepQuality)) as real * 0.3 + (5 - n.Get(PrimaryAffect)) as real * 0.4
       + (5 - n.Get(EnergyLevel)) as real * 0.3) / 5.0
    case Anxiety =>
      ((5 - n.Get(BeliefControl)) as real * 0.4 + (5 - n.Get(BeliefSafety)) as real * 0.3
       + (5 - n.Get(FocusLevel)) as real * 0.3) / 5.0
    case Burnout =>
      ((5 - n.Get(FocusLevel)) as real * 0.4 + (5 - n.Get(EnergyLevel)) as real * 0.4
       + (5 - n.Get(SocialWithdrawal)) as real * 0.2) / 5.0
    case StressOverload =>
      ((5 - n.Get(BeliefControl)) as real * 0.4 + (5 - n.Get(BeliefIntimacy)) as real * 0.3
       + (5 - n.Get(BeliefTrust)) as real * 0.3) / 5.0
    case Resilient =>
      d.protectiveStrength / 100.0 * 0.5 + n.Get(SocialSupport) as real / 5.0 * 0.3
      + n.Coping() as real / 5.0 * 0.2
  }

  /** Python's `max(xs)` position: the first index holding the largest value
      (a later element replaces the running best only when strictly greater). */
  function FirstArgMax(xs: seq<real>): (i: nat)
    requires |xs| > 0
    ensures i < |xs|
    ensures forall j :: 0 <= j < |xs| ==> xs[j] <= xs[i]
    ensures forall j :: 0 <= j < i ==> xs[j] < xs[i]
  {
    if |xs| == 1 then 0
    else
      var best := FirstArgMax(xs[..|xs| - 1]);
      if xs[|xs| - 1] > xs[best] then |xs| - 1 else best
  }

  datatype ClusterResult = ClusterResult(cluster: Cluster, confidence: real)

  /** `determine_cluster` before rounding: the first cluster in declaration
      order whose affinity is maximal, with its affinity capped at 1. */
  function DetermineCluster(d: DomainScores, n: Normalized): (r: ClusterResult)
    ensures forall c :: Affinity(c, d, n) <= Affinity(r.cluster, d, n)
    ensures forall c :: Rank(c) < Rank(r.cluster) ==> Affinity(c, d, n) < Affinity(r.cluster, d, n)
    ensures r.confidence <= 1.0
    ensures Affinity(r.cluster, d, n) <= 1.0 ==> r.confidence == Affinity(r.cluster, d, n)
    ensures Affinity(r.cluster, d, n) > 1.0 ==> r.confidence == 1.0
  {
    var scores := seq(5, k requires 0 <= k < 5 => Affinity(ClusterOrder[k], d, n));
    var i := FirstArgMax(scores);
    assert forall c :: ClusterOrder[Rank(c)] == c && scores[Rank(c)] == Affinity(c, d, n);
    var best := scores[i];
    ClusterResult(ClusterOrder[i], if best < 1.0 then best else 1.0)
  }

  // ---------------------------------------------------------------------------
  // Stage 5: risk flags
  // ---------------------------------------------------------------------------

  datatype Priority = Emergency | HighRisk | ModerateRisk | Stable

  datatype RiskFlags = RiskFlags(
    suicideFlag: bool,
    acuteRiskFlag: bool,
    moderateFlag: bool,
    lowFlag: bool,
    priority: Priority)

  /** The raw suicidal-thoughts answer is one of the two affirmative options. */
  predicate SuicidalAffirmative(raw: Responses) {
    "suicidal_thoughts" in raw && raw["suicidal_thoughts"] in [Text("yes_briefly"), Text("yes_often")]
  }

  /** At most one of the four boolean flags is set. */
  predicate AtMostOneFlag(r: RiskFlags) {
    (if r.suicideFlag then 1 else 0) + (if r.acuteRiskFlag then 1 else 0)
    + (if r.moderateFlag then 1 else 0) + (if r.lowFlag then 1 else 0) <= 1
  }

  /** `assess_risk_flags`: suicidal ideation short-circuits everything;
      otherwise the first of high risk, moderate risk and "stable with strong
      protection" whose condition holds. */
  function AssessRisk(d: DomainScores, n: Normalized, raw: Responses): (r: RiskFlags)
    ensures AtMostOneFlag(r)
    ensures r.suicideFlag <==> SuicidalAffirmative(raw)
    ensures r.priority == Emergency <==> r.suicideFlag
    ensures r.suicideFlag ==> !r.acuteRiskFlag && !r.moderateFlag && !r.lowFlag
    ensures r.acuteRiskFlag <==>
      !SuicidalAffirmative(raw) && d.moodStability < 50.0 && n.Get(SocialSupport) < 2
    ensures r.moderateFlag <==>
      !SuicidalAffirmative(raw) && d.moodStability < 50.0 && n.Get(SocialSupport) >= 2 && d.energyFunction < 50.0
    ensures r.priority == HighRisk <==> r.acuteRiskFlag
    ensures r.priority == ModerateRisk <==> r.moderateFlag
    ensures r.lowFlag ==> r.priority == Stable
    ensures r.lowFlag <==>
      !SuicidalAffirmative(raw) && !(d.moodStability < 50.0 && n.Get(SocialSupport) < 2) &&
      !(d.moodStability < 50.0 && d.energyFunction < 50.0) && d.protectiveStrength > 70.0
  {
    var noFlags := RiskFlags(false, false, false, false, Stable);
    if SuicidalAffirmative(raw) then
      noFlags.(suicideFlag := true, priority := Emergency)
    else
      if d.moodStability < 50.0 && n.Get(SocialSupport) < 2 then
        noFlags.(acuteRiskFlag := true, priority := HighRisk)
      else if d.moodStability < 50.0 && d.energyFunction < 50.0 then
        noFlags.(moderateFlag := true, priority := ModerateRisk)
      else if d.protectiveStrength > 70.0 then
        noFlags.(lowFlag := true, priority := Stable)
      else
        noFlags
  }

  // ---------------------------------------------------------------------------
  // Stage 6: summary text
  // ---------------------------------------------------------------------------

  /** What the engine embeds in the prompt it sends to the text generator. */
  datatype Prompt = SummaryPrompt(cluster: Cluster, domains: DomainScores, priority: Priority)

  /** The two replies the engine recognises as a generator failure. */
  const NotConfigured: string := "AI service not configured"
  const ServiceError: string := "AI service error"

  /** The fixed per-cluster summary sentence. */
  function Template(c: Cluster): (r: string)
    ensures |r| > 0
  {
    match c
    case AffectiveLow => AffectiveLowSummary
    case Anxiety => AnxietySummary
    case Burnout => BurnoutSummary
    case StressOverload => StressOverloadSummary
    case Resilient => ResilientSummary
  }

  const AffectiveLowSummary: string :=
    "You've been feeling low energy and emotionally fatigued. Journaling and short breaks may help balance your energy over the week."
  const AnxietySummary: string :=
    "You might be feeling tense or worried lately. Breathing exercises and grounding techniques could help you feel more centered."
  const BurnoutSummary: string :=
    "It sounds like you're feeling drained and overwhelmed. Taking small breaks and setting boundaries might help restore your energy."
  const StressOverloadSummary: string :=
    "You seem to be carrying a lot right now. Connecting with supportive people and practicing self-compassion could be helpful."
  const ResilientSummary: string :=
    "You have strong coping skills and support systems. Keep nurturing these relationships and practices that help you thrive."

  const SleepTip: string := "Consider establishing a consistent sleep routine."
  const ConnectionTip: string := "Staying connected with others can be really helpful."
  const SupportTip: string := "Your existing support systems are a great foundation."

  /** The gated recommendation sentences, in append order. The sleep gate reads
      a `sleep_quality` domain that the domain dictionary never holds. */
  function Recommendations(d: DomainScores): seq<string> {
    (if d.Get("sleep_quality", 60.0) < 50.0 then [SleepTip] else [])
    + (if d.socialEngagement < 50.0 then [ConnectionTip] else [])
    + (if d.protectiveStrength > 70.0 then [SupportTip] else [])
  }

  /** Python's `" ".join(xs)`. */
  function JoinWithSpaces(xs: seq<string>): string {
    if |xs| == 0 then ""
    else if |xs| == 1 then xs[0]
    else xs[0] + " " + JoinWithSpaces(xs[1..])
  }

  /** The static summary used when the generator is unavailable. */
  function FallbackSummary(c: Cluster, d: DomainScores): string {
    var recs := Recommendations(d);
    Template(c) + (if recs == [] then "" else " " + JoinWithSpaces(recs))
  }

  /** The generator reply counts as a failure: empty, or exactly one of the
      two recognised sentinels. */
  predicate GeneratorFailed(reply: string) {
    reply == "" || reply == NotConfigured || reply == ServiceError
  }

  /** `generate_summary_text`: the generator's reply unless it failed, the
      static summary otherwise. */
  function GenerateSummaryText(c: Cluster, d: DomainScores, risk: RiskFlags, generate: Prompt -> string): (r: string)
    ensures |r| > 0
    ensures !GeneratorFailed(generate(SummaryPrompt(c, d, risk.priority))) ==> r == generate(SummaryPrompt(c, d, risk.priority))
    ensures GeneratorFailed(generate(SummaryPrompt(c, d, risk.priority))) ==> r == FallbackSummary(c, d)
  {
    var reply := generate(SummaryPrompt(c, d, risk.priority));
    if !GeneratorFailed(reply) then reply else FallbackSummary(c, d)
  }

  // ---------------------------------------------------------------------------
  // The whole pipeline
  // ---------------------------------------------------------------------------

  /** The assessment dictionary the engine returns (without `processed_at`). */
  datatype Assessment = Assessment(
    mentalHealthIndex: real,
    clusterPrimary: Cluster,
    clusterConfidence: real,
    domainScores: Option<DomainScores>,
    riskFlags: RiskFlags,
    summaryText: string,
    emergencyMode: bool,
    error: Option<string>)

  /** The hard-coded result of the engine's fault boundary. Its risk
      dictionary holds only `priority_level`; the absent flags read as false. */
  const FailedAssessment: Assessment := Assessment(
    50.0, Resilient, 0.5, None, RiskFlags(false, false, false, false, Stable),
    "Thank you for completing the assessment.", false, Some("Failed to process onboarding data"))

  /** `process_onboarding_data`: the six stages in order, or the fixed
      fallback when a stage raises. */
  function ProcessOnboardingData(raw: Responses, generate: Prompt -> string): (r: Assessment)
    ensures r.emergencyMode == r.riskFlags.suicideFlag
    ensures |r.summaryText| > 0
    ensures AtMostOneFlag(r.riskFlags)
    ensures r.clusterConfidence <= 1.0
    ensures 0.0 <= r.mentalHealthIndex <= 100.0
    ensures (exists f :: HoldsList(raw, f)) <==> r == FailedAssessment
    ensures (forall f :: !HoldsList(raw, f)) ==>
      r.error.None? && r.domainScores.Some? && AllWithin(r.domainScores.value, 0.0, 100.0)
      && (r.emergencyMode <==> SuicidalAffirmative(raw))
  {
    match Normalize(raw)
    case Err(_) => FailedAssessment
    case Ok(n) =>
      var d := CalculateDomainScores(n);
      var index := MentalHealthIndex(d);
      var cr := DetermineCluster(d, n);
      var risk := AssessRisk(d, n, raw);
      var summary := GenerateSummaryText(cr.cluster, d, risk, generate);
      Assessment(index, cr.cluster, cr.confidence, Some(d), risk, summary, risk.suicideFlag, None)
  }
}

=== FILE: scoring_properties.dfy ===
/** Properties of the scoring engine that relate several stages or pin down
    behaviour the engine's code fixes but its names do not suggest. */
module ScoringProperties {
  import opened Wrappers
  import opened Scoring

  /** With no answers at all every field normalises to the neutral 3 and
      every domain sits at 60. */
  lemma EmptyAnswersNormalizeNeutral()
    ensures Normalize(map[]).Ok?
    ensures var n := Normalize(map[]).value;
      && (forall f :: n.Get(f) == 3) && n.Coping() == 3
      && CalculateDomainScores(n) == DomainScores(60.0, 60.0, 60.0, 60.0, 60.0)
  {
  }

  /** On neutral scores the four inversions score 0.4 and the resilient
      cluster wins with 0.6. */
  lemma NeutralScoresSelectResilient(d: DomainScores, n: Normalized)
    requires forall f :: n.Get(f) == 3
    requires n.Coping() == 3
    requires d == DomainScores(60.0, 60.0, 60.0, 60.0, 60.0)
    ensures forall c :: c != Resilient ==> Affinity(c, d, n) == 0.4
    ensures DetermineCluster(d, n) == ClusterResult(Resilient, 0.6)
  {
  }

  /** With no answers the engine reports the neutral baseline: every domain
      60, index 60, the resilient cluster with affinity 0.6, nothing flagged. */
  lemma EmptyAnswersGiveBaseline(generate: Prompt -> string)
    ensures var r := ProcessOnboardingData(map[], generate);
      && r.domainScores == Some(DomainScores(60.0, 60.0, 60.0, 60.0, 60.0))
      && r.mentalHealthIndex == 60.0
      && r.clusterPrimary == Resilient
      && r.clusterConfidence == 0.6
      && r.riskFlags == RiskFlags(false, false, false, false, Stable)
      && !r.emergencyMode
  {
    EmptyAnswersNormalizeNeutral();
    var n := Normalize(map[]).value;
    var d := CalculateDomainScores(n);
    NeutralScoresSelectResilient(d, n);
    assert AllWithin(d, 60.0, 60.0);
  }

  /** On normalised input the four inversion affinities stay within 0..0.8 and
      the resilient affinity within 0..1. */
  lemma AffinityBounds(d: DomainScores, n: Normalized)
    requires WellFormed(n)
    requires 0.0 <= d.protectiveStrength <= 100.0
    ensures forall c :: c != Resilient ==> 0.0 <= Affinity(c, d, n) <= 0.8
    ensures 0.0 <= Affinity(Resilient, d, n) <= 1.0
    ensures forall c :: 0.0 <= Affinity(c, d, n) <= 1.0
  {
  }

  /** The `min(score, 1.0)` cap never changes the confidence of an engine run. */
  lemma ConfidenceIsNeverCapped(raw: Responses)
    requires Normalize(raw).Ok?
    ensures var n := Normalize(raw).value;
      var d := CalculateDomainScores(n);
      var r := DetermineCluster(d, n);
      r.confidence == Affinity(r.cluster, d, n) && 0.0 <= r.confidence <= 1.0
  {
    var n := Normalize(raw).value;
    assert WellFormed(n);
    var d := CalculateDomainScores(n);
    assert 0.0 <= d.protectiveStrength <= 100.0;
    AffinityBounds(d, n);
    var r := DetermineCluster(d, n);
  }

  /** The three-term protective mean is dead code: every engine run averages
      social support and the coping count only. */
  lemma ProtectiveStrengthIsTwoTermMean(raw: Responses)
    requires Normalize(raw).Ok?
    ensures var n := Normalize(raw).value;
      CalculateDomainScores(n).protectiveStrength == (n.Get(SocialSupport) + n.Coping()) as real * 10.0
  {
  }

  /** An affirmative suicidal-ideation answer yields the emergency result
      whatever else was answered, provided no stage raised. */
  lemma SuicidalAnswerForcesEmergency(raw: Responses, generate: Prompt -> string)
    requires SuicidalAffirmative(raw)
    requires Normalize(raw).Ok?
    ensures var r := ProcessOnboardingData(raw, generate);
      r.riskFlags == RiskFlags(true, false, false, false, Emergency) && r.emergencyMode
  {
  }

  /** The fault boundary hides an affirmative suicidal answer: a list posted
      for a tabled field yields the fixed result, whose emergency mode is off. */
  lemma FaultMasksSuicidalAnswer(generate: Prompt -> string)
    ensures var raw := map["suicidal_thoughts" := Text("yes_often"), "sleep_quality" := Items(["terrible"])];
      SuicidalAffirmative(raw) && !ProcessOnboardingData(raw, generate).emergencyMode
  {
  }

  /** In general: whenever some tabled field holds a list, an affirmative
      suicidal answer does not switch emergency mode on. */
  lemma AnyFaultMasksSuicidalAnswer(raw: Responses, generate: Prompt -> string)
    requires SuicidalAffirmative(raw) && exists f :: HoldsList(raw, f)
    ensures !ProcessOnboardingData(raw, generate).emergencyMode
  {
  }

  /** An empty coping-skills list scores 0, below the 1..5 scale. */
  lemma EmptyCopingListScoresZero(raw: Responses)
    requires "coping_skills" in raw && raw["coping_skills"] == Items([])
    requires Normalize(raw).Ok?
    ensures Normalize(raw).value.Coping() == 0
  {
  }

  /** The sleep recommendation is unreachable: it reads a domain that the
      domain dictionary never holds. */
  lemma SleepTipNeverGiven(d: DomainScores)
    ensures SleepTip !in Recommendations(d)
  {
  }

  /** The static summary is the cluster template followed by the connection
      sentence (social engagement below 50) and then the support sentence
      (protective strength above 70). */
  lemma FallbackSummaryShape(c: Cluster, d: DomainScores)
    ensures FallbackSummary(c, d) ==
      Template(c)
      + (if d.socialEngagement < 50.0 then " " + ConnectionTip else "")
      + (if d.protectiveStrength > 70.0 then " " + SupportTip else "")
  {
    RecommendationsWithoutSleep(d);
    JoinOfOptionalPair(Template(c), ConnectionTip, SupportTip, d.socialEngagement < 50.0, d.protectiveStrength > 70.0);
  }

  /** Appending the space-joined list of up to two optional sentences appends
      each present sentence after a space. */
  lemma JoinOfOptionalPair(t: string, a: string, b: string, useA: bool, useB: bool)
    ensures var recs := (if useA then [a] else []) + (if useB then [b] else []);
      t + (if recs == [] then "" else " " + JoinWithSpaces(recs))
      == t + (if useA then " " + a else "") + (if useB then " " + b else "")
  {
  }

  /** The recommendations, with the unreachable sleep branch removed. */
  lemma RecommendationsWithoutSleep(d: DomainScores)
    ensures Recommendations(d) ==
      (if d.socialEngagement < 50.0 then [ConnectionTip] else [])
      + (if d.protectiveStrength > 70.0 then [SupportTip] else [])
  {
  }

  /** The reply the deployed generator gives when no API key is set. */
  const MissingKeyReply: string := "AI service not configured. Please set GEMINI_API_KEY in your environment."

  /** The failure check compares for exact equality, so the deployed
      generator's own failure message is passed through as the summary. */
  lemma MissingKeyReplyBecomesSummary(c: Cluster, d: DomainScores, risk: RiskFlags)
    ensures GenerateSummaryText(c, d, risk, p => MissingKeyReply) == MissingKeyReply
  {
  }
}

=== FILE: seqs.dfy ===
/** Order-preserving selection over sequences: the shape shared by Python's
    "append every category whose keywords match" loops, its "return the first
    category that matches" loops, and JavaScript's `Array.prototype.filter`. */
module Seqs {

  /** `sub` is obtained from `xs` by deleting elements, keeping the rest in order. */
  ghost predicate Subsequence<T>(sub: seq<T>, xs: seq<T>)
    decreases |xs|
  {
    if |sub| == 0 then true
    else if |xs| == 0 then false
    else if sub[0] == xs[0] then Subsequence(sub[1..], xs[1..])
    else Subsequence(sub, xs[1..])
  }

  /** A subsequence of the tail of `xs` is a subsequence of `xs`. */
  lemma {:induction false} SubsequenceOfTail<T>(sub: seq<T>, xs: seq<T>)
    requires |xs| > 0 && Subsequence(sub, xs[1..])
    ensures Subsequence(sub, xs)
    decreases |xs|, 0
  {
    if |sub| > 0 && sub[0] == xs[0] {
      SubsequenceDropFirst(sub, xs[1..]);
    }
  }

  /** Deleting the first element of a subsequence leaves a subsequence. */
  lemma {:induction false} SubsequenceDropFirst<T>(sub: seq<T>, ys: seq<T>)
    requires |sub| > 0 && Subsequence(sub, ys)
    ensures Subsequence(sub[1..], ys)
    decreases |ys|, 1
  {
    if sub[0] == ys[0] {
      if |sub| > 1 {
        SubsequenceOfTail(sub[1..], ys);
      }
    } else {
      SubsequenceDropFirst(sub, ys[1..]);
      if |sub| > 1 {
        SubsequenceOfTail(sub[1..], ys);
      }
    }
  }

  /** No element occurs twice. */
  ghost predicate NoDuplicates<T>(xs: seq<T>) {
    forall i, j :: 0 <= i < j < |xs| ==> xs[i] != xs[j]
  }

  /** The elements of `xs` satisfying `keep`, in their original order. */
  function Filter<T>(xs: seq<T>, keep: T -> bool): (r: seq<T>)
    ensures forall i :: 0 <= i < |r| ==> r[i] in xs && keep(r[i])
    ensures forall i :: 0 <= i < |xs| && keep(xs[i]) ==> xs[i] in r
    ensures Subsequence(r, xs)
    ensures NoDuplicates(xs) ==> NoDuplicates(r)
  {
    if |xs| == 0 then []
    else
      var rest := Filter(xs[1..], keep);
      assert forall x :: x in xs[1..] ==> x in xs;
      if keep(xs[0]) then
        var r := [xs[0]] + rest;
        assert forall i :: 1 <= i < |r| ==> r[i] == rest[i - 1];
        assert NoDuplicates(xs) ==> xs[0] !in xs[1..];
        r
      else rest
  }

  /** `Filter` keeps every copy of a kept element and no copy of a dropped
      one, as a list comprehension with a condition does. */
  lemma {:induction false} FilterCount<T>(xs: seq<T>, keep: T -> bool, x: T)
    ensures multiset(Filter(xs, keep))[x] == if keep(x) then multiset(xs)[x] else 0
  {
    if |xs| > 0 {
      FilterCount(xs[1..], keep, x);
      assert xs == [xs[0]] + xs[1..];
      assert multiset(xs) == multiset{xs[0]} + multiset(xs[1..]);
    }
  }

  /** The index of the first element satisfying `p`, or `|xs|` when none does:
      the early `return` inside a Python `for` loop. */
  function FirstIndex<T>(xs: seq<T>, p: T -> bool): (i: nat)
    ensures i <= |xs|
    ensures forall j :: 0 <= j < i ==> !p(xs[j])
    ensures i < |xs| ==> p(xs[i])
  {
    if |xs| == 0 then 0
    else if p(xs[0]) then 0
    else 1 + FirstIndex(xs[1..], p)
  }
}

=== FILE: text.dfy ===
/** Text primitives the keyword classifiers are built on: lower-casing and
    Python's substring test `needle in haystack`. */
module Text {

  /** Lower-cases one character; only the ASCII letters are folded. */
  function LowerChar(c: char): char {
    if 'A' <= c <= 'Z' then (c as int + 32) as char else c
  }

  /** `s.lower()`, restricted to ASCII case folding. */
  function Lower(s: string): (r: string)
    ensures |r| == |s|
    ensures forall i :: 0 <= i < |r| ==> !('A' <= r[i] <= 'Z')
    ensures forall i :: 0 <= i < |s| && !('A' <= s[i] <= 'Z') ==> r[i] == s[i]
    ensures forall i :: 0 <= i < |s| && 'A' <= s[i] <= 'Z' ==> r[i] as int - s[i] as int == 'a' as int - 'A' as int
  {
    seq(|s|, i requires 0 <= i < |s| => LowerChar(s[i]))
  }

  /** Lower-casing twice is lower-casing once. */
  lemma LowerIdempotent(s: string)
    ensures Lower(Lower(s)) == Lower(s)
  {
  }

  /** `needle` occurs in `hay` starting at index `i`. */
  ghost predicate OccursAt(needle: string, hay: string, i: int) {
    0 <= i && i + |needle| <= |hay| && hay[i..i + |needle|] == needle
  }

  /** The declarative meaning of Python's `needle in hay` on strings. */
  ghost predicate IsSubstring(needle: string, hay: string) {
    exists i :: OccursAt(needle, hay, i)
  }

  /** Executable substring search: is `needle` a prefix of some suffix of `hay`? */
  function Contains(hay: string, needle: string): bool
    decreases |hay|
  {
    if needle <= hay then true
    else if |hay| == 0 then false
    else Contains(hay[1..], needle)
  }

  /** An occurrence in the tail of `hay` is an occurrence in `hay`, one place later. */
  lemma OccursInTail(needle: string, hay: string, i: int)
    requires |hay| > 0 && 0 <= i
    ensures OccursAt(needle, hay[1..], i) <==> OccursAt(needle, hay, i + 1)
  {
    if i + |needle| <= |hay[1..]| {
      assert hay[1..][i..i + |needle|] == hay[i + 1..i + 1 + |needle|];
    }
  }

  /** When `needle` is not a prefix of `hay`, it occurs in `hay` exactly when
      it occurs in the tail. */
  lemma SubstringOfTail(needle: string, hay: string)
    requires |hay| > 0 && !(needle <= hay)
    ensures IsSubstring(needle, hay) <==> IsSubstring(needle, hay[1..])
  {
    if IsSubstring(needle, hay[1..]) {
      var i :| OccursAt(needle, hay[1..], i);
      OccursInTail(needle, hay, i);
    }
    if IsSubstring(needle, hay) {
      var i :| OccursAt(needle, hay, i);
      OccursInTail(needle, hay, i - 1);
    }
  }

  /** The search finds `needle` exactly when it occurs somewhere in `hay`. */
  lemma {:induction false} ContainsIsSubstring(hay: string, needle: string)
    ensures Contains(hay, needle) <==> IsSubstring(needle, hay)
    decreases |hay|
  {
    if needle <= hay {
      assert OccursAt(needle, hay, 0);
    } else if |hay| > 0 {
      ContainsIsSubstring(hay[1..], needle);
      SubstringOfTail(needle, hay);
    }
  }

  /** Python's `any(word in text for word in words)`. */
  function MentionsAny(words: seq<string>, text: string): bool
  {
    |words| > 0 && (Contains(text, words[0]) || MentionsAny(words[1..], text))
  }

  /** `MentionsAny` holds exactly when one of the words occurs in the text. */
  lemma {:induction false} MentionsAnyIff(words: seq<string>, text: string)
    ensures MentionsAny(words, text) <==> exists k :: 0 <= k < |words| && IsSubstring(words[k], text)
  {
    if |words| > 0 {
      ContainsIsSubstring(text, words[0]);
      MentionsAnyIff(words[1..], text);
      if exists k :: 0 <= k < |words[1..]| && IsSubstring(words[1..][k], text) {
        var k :| 0 <= k < |words[1..]| && IsSubstring(words[1..][k], text);
        assert IsSubstring(words[k + 1], text);
      }
      if exists k :: 0 <= k < |words| && IsSubstring(words[k], text) {
        var k :| 0 <= k < |words| && IsSubstring(words[k], text);
        if k > 0 {
          assert IsSubstring(words[1..][k - 1], text);
        }
      }
    }
  }
}

=== FILE: wrappers.dfy ===
/** Optional values and results with an error case, shared by every module of the model. */
module Wrappers {

  /** A value that may be absent: a missing dictionary key, a missing query argument. */
  datatype Option<+T> = None | Some(value: T) {

    /** The wrapped value, or `default` when absent (Python's `dict.get(key, default)`). */
    function GetOr(default: T): T {
      match this
      case Some(v) => v
      case None => default
    }
  }

  /** Either a computed value or the error the source raises instead. */
  datatype Result<+T, +E> = Ok(value: T) | Err(error: E)
}
